=== FILE: README.md ===
# FontFlow font installer — a Dafny model of its core

FontFlow is a Windows desktop tool. It takes ZIP archives of fonts, extracts the font files from them, and installs each file system-wide. The core logic lives in `font_installer.py`, and this project models that logic as pure Dafny functions and proves properties about them:

- **`Extraction`** — the archive scanner `extract_fonts_from_zip`.
  - Every non-directory member whose lower-cased `pathlib` suffix is `.ttf`, `.otf`, `.ttc` or `.otc` is extracted, in archive order.
  - An unreadable archive, or a failing extraction, ends the scan. The error goes into a dialog and is never raised.
- **`RegistryNames`** — `get_font_name_from_file`.
  - Takes the base name without its extension.
  - Turns underscores and hyphens into spaces.
  - Appends a type label chosen by the lower-cased extension. TrueType is the fallback.
- **`Install`** — `install_font_file`.
  - Copies the file into `%WINDIR%\Fonts`, calls `AddFontResourceW`, writes the registry value and broadcasts `WM_FONTCHANGE`.
  - If the registration is refused, it removes the copy.
  - A `PermissionError` makes it return `None`. Every other failure returns `(False, "unknown error")`.
- **`Batch`** — the worker `install_fonts_thread`.
  - Creates a temporary directory, extracts every archive into it and installs the fonts one by one.
  - Counts installed fonts, system-wide fonts, user-level fonts and failures.
  - Builds the status line and the closing dialog. The completion message lists at most five failures; the failure dialog lists at most ten.
- **`UserDirs`** — `check_user_font_directory`. It returns the first candidate directory below the home directory that can be created and written to.
- **`Paths`** — the string operations these rely on: `basename`, `pathlib` suffix, `splitext`, `join` and ASCII lower-casing, with both `/` and `\` as separators.
- **`Fixtures`** — members of the archive that `FontFlow/utilities/create_test_fonts.py` writes, run through the extension filter.

Every foreign call is a parameter of the model rather than something it performs:

- the ZIP library's behaviour is `Archive`/`Entry` values, including the error an extraction raises;
- the file copy, `AddFontResourceW`, the registry write and the broadcast are one `FontEnv` per font, and `envs(i)` is the environment of the i-th font;
- `tempfile.TemporaryDirectory()` is a `TempDir` outcome: creating the directory raises, or it is created and removing it later completes or raises;
- `WINDIR` is an `Option<string>`;
- the directory test is a function from a directory to its `Probe` outcome.

The GUI's dialogs and status line are datatypes (`Dialog`, `Line`, `Status`) without their wording.

Three behaviours of the code are easy to miss, and the model follows the code in each:

- The worker counts tags that contain `"user-level"` (font_installer.py:467) and has per-user lines in its completion message (font_installer.py:498-500). But `install_font_file` has no per-user path. It only ever returns `"system-wide"`, `"unknown error"` or `None`, so the tally's user-level branch cannot be reached (`Install.NoUserLevelTag`).
- When no font is found, `return` inside the `try` still runs the `finally` clause. The "No Fonts Found" warning is therefore followed by the "Installation Failed" dialog with an empty list (`Batch.RunBatch`).
- The worker's `except` clause (font_installer.py:472-476) schedules a callback that reads the exception name `e`. Python unbinds that name when the clause ends, so the callback raises `NameError` when the GUI thread runs it, and the "Installation Error" dialog never appears (`Batch.AsWrittenErrorIsSilent`, and the second Findings row).

## Model

| member | source | states |
|---|---|---|
| Extraction.ExtractFonts | font_installer.py:312-331 | An unreadable archive yields no fonts and its error. A readable one yields, in archive order, the extracted paths of the non-directory members with a font extension that precede the first failing extraction. An error is reported exactly when such a failure exists, and it is that member's error. Nothing is raised. |
| Extraction.ScanIsFilteredPrefix | font_installer.py:317-323 | The member loop returns the in-order filtered prefix up to the first failing extraction, and an error exactly when one fails. |
| Extraction.CompleteScan | font_installer.py:317-323 | When no extraction fails, every font member of the archive is extracted, in order, and no error is reported. |
| Extraction.ExtractedAreFonts | font_installer.py:320-321 | Every returned path has a lower-cased suffix in the set `{.ttf, .otf, .ttc, .otc}`. |
| Extraction.AcceptedExact | font_installer.py:318-321 | The filter keeps a member if and only if the member is in the listing and passes the test. |
| Extraction.FirstFailure | font_installer.py:323-329 | Index of the first accepted member whose extraction raises. Every accepted member before it extracts cleanly. |
| Paths.Suffix | font_installer.py:320 | `Path(name).suffix`: empty, or an extension of at least two characters that ends the final component and is shorter than it, so a leading dot or a trailing dot gives no suffix. |
| Paths.SplitExt | font_installer.py:398-404 | `os.path.splitext`: root and extension concatenate to the path, and the extension is empty or a dot followed by text with no dot or separator. |
| Paths.Lower | font_installer.py:320 | Lower-casing keeps the length and maps every upper-case ASCII letter to its lower-case partner, position by position. |
| Paths.Basename | font_installer.py:335 | The base name is a separator-free tail of the path, and it is preceded by a separator whenever it is shorter than the path. |
| Paths.Join | font_installer.py:339-340 | For a directory that is not a bare drive, the joined path is the directory, then one backslash unless the directory is empty or already ends in a separator, then the name. Its length is fixed accordingly, so nothing else comes between the directory and the name. |
| Paths.JoinDetermined | font_installer.py:339-340 | The contract of `Paths.Join` fixes its value: any text that meets it is the joined path. |
| Paths.SplitExtAgreesWithSuffix | font_installer.py:320 | For a name whose `pathlib` suffix is non-empty and whose stem is not all dots, `splitext` splits at the same dot. |
| Paths.LowerOfLowerCase | font_installer.py:320 | Lower-casing leaves text without upper-case ASCII letters unchanged. |
| RegistryNames.SpaceOut | font_installer.py:401 | Same length as the input. Every underscore and hyphen becomes a space, and every other character stays in place. |
| RegistryNames.TypeOfExtension | font_installer.py:404-412 | `.otf`, `.ttc` and `.otc` each get their own label, each if and only if it is that extension. Everything else, `.ttf` included, gets TrueType. |
| RegistryNames.FontRegistryName | font_installer.py:391-412 | The registry name contains no underscore or hyphen. |
| RegistryNames.RegistryNameOfFile | font_installer.py:396-412 | For `dir\stem.ext` with a stem that is neither empty nor made only of dots, the name is the spaced-out stem followed by the label of the lower-cased extension. |
| RegistryNames.RegistryNameWithoutExtension | font_installer.py:397-412 | A file name without a dot keeps its whole name, spaced out, and gets the TrueType fallback label. |
| RegistryNames.RegistryNameOfScannedFont | font_installer.py:320 | For a path the scanner accepted whose stem is neither empty nor made only of dots, the label follows the same suffix the scanner examined. |
| RegistryNames.RegistryNameOfAllDotsStem | font_installer.py:396-412 | For a path with a `pathlib` suffix whose stem is made only of dots, `splitext` finds no extension: the whole base name is spaced out and gets the TrueType fallback label, whatever the suffix. |
| Fixtures.DotStemScannedButFallbackLabel | font_installer.py:396-412 | Under the `PurePath.suffix` rule of Python 3.12, a member named a dot followed by a font extension, such as `..otf`, is extracted because its suffix is that extension. It is still registered under its whole name with the TrueType label, because `splitext` sees no extension in it: the scanner and the registry name disagree about its kind. |
| Install.InstallAt | font_installer.py:333-389 | The body of `install_font_file`; `Install.InstallFontFile` supplies its destination and registry value. Success if and only if the copy completes, `AddFontResourceW` returns more than 0 and the broadcast returns. `None` is returned if and only if the copy, `AddFontResourceW` or the broadcast is reached and raises `PermissionError` (a registry write's `PermissionError` is swallowed); otherwise a failure returns `(False, "unknown error")`. When registration returns 0 or less, the copy is removed, nothing is stored or broadcast, and the call fails. The broadcast is called (it may still raise) if and only if registration succeeded. |
| Install.RegistryValueNamesTheFile | font_installer.py:354-360 | A stored registry value maps the font's registry name to its file name. |
| Install.CopyKeepsFileName | font_installer.py:339-343 | The copy lands below the Windows directory, or `C:\Windows` when `WINDIR` is unset, and keeps the file's base name. |
| Install.RegistryOutcomeIrrelevant | font_installer.py:354-363 | A failing registry write changes nothing but the stored value: the same result, copy, removal and broadcast. |
| Install.NoUserLevelTag | font_installer.py:375-389 | Every returned tag is `"system-wide"` or `"unknown error"`. |
| Install.InstallFontFileCorrected | font_installer.py:383-389 | Without the bare `return`, the function always returns a tuple. Success if and only if registration and the broadcast succeed, and it otherwise agrees with the function as written. |
| Batch.TallyAttempts | font_installer.py:456-470 | The counting loop computes the tally of the attempts, that is `Batch.Count` (one iteration) folded over them by `Batch.TallyOf`, and an attempt that returns `None` leaves the loop. |
| Batch.AbortIsFinal | font_installer.py:462-472 | Once an exception has left the loop, later attempts change no counter. |
| Batch.TallyAccountsForEveryAttempt | font_installer.py:462-470 | When every attempt returns a tuple, each one is counted exactly once, as installed or failed. Failures keep processing order, and system plus user is at most installed. |
| Batch.SystemOnlyTally | font_installer.py:464-468 | When every success is tagged `"system-wide"`, the user count is 0 and the system count equals the installed count. |
| Batch.TallyOfRun | font_installer.py:456-472 | The tally is aborted if and only if some attempt returned `None`. The attempts before the first `None` are each counted once, with failures in order. |
| Batch.TallyAbortsAt | font_installer.py:462-472 | An attempt that returns `None` after tuples leaves the counters of the attempts before it, marked as aborted. |
| Batch.FirstNone | font_installer.py:462 | Index of the first attempt that returned `None`. Every attempt before it returned a tuple. |
| Batch.Items | font_installer.py:504 | One line per failure, for the first `min(n, limit)` failures, in order. |
| Batch.TruncatedBounded | font_installer.py:504-507 | A truncated listing shows the first `min(n, limit)` failures in order, adds the "and more" line if and only if there are more than `limit`, and lists or counts every failure. |
| Batch.HeadedBounded | font_installer.py:502-507 | A listing headed by the failure count is empty if and only if there are no failures. Otherwise the first `min(n, limit)` failures follow the count in order, and the rest are counted. |
| Batch.SummaryFailuresBounded | font_installer.py:502-507 | The completion message lists at most five failures, adds "and n-5 more" if and only if there are more than five, and accounts for every failure. |
| Batch.FailureDetailsBounded | font_installer.py:517-519 | The failure dialog lists at most ten failures, adds "and n-10 more failures" if and only if there are more than ten, and accounts for every failure. |
| Batch.CompletionMessageContents | font_installer.py:491-510 | The completion message opens with the headline, shows the system-wide count and the per-user count each if and only if it is positive, lists at most five failures and counts every other one, and closes with the two notes. |
| Batch.ExtractAll | font_installer.py:436-442 | The fonts found are each archive's scanned fonts concatenated in selection order. An extraction-error dialog naming the archive shows for exactly the archives whose scan reports an error, in the same order, so there is at most one per archive. |
| Batch.CollectedAreFonts | font_installer.py:436-442 | Every font handed to the installer has a font extension. |
| Batch.Conclude | font_installer.py:444-526 | The total is the number of fonts found, no more installer calls are made than fonts exist, and the status line (`Batch.StatusOf`) reports completion if and only if something was installed. `Batch.FinalDialog` is the `finally` clause's choice between the completion message and the failure dialog. |
| Batch.RunBatch | font_installer.py:419-526 | If the temporary directory cannot be created, nothing is extracted or counted, the `except` clause runs, and an empty failure dialog shows. With no fonts found, the installer is never called and nothing is counted. The warning is then followed by what the `except` clause shows when removing the directory fails, and then by an empty failure dialog. The status line reports completion if and only if something was installed. |
| Batch.ClosingDialogs | font_installer.py:472-526 | After dialogs other than the error dialog, the error dialog shows if and only if an exception reached the `except` clause and the program is the corrected one. As written, it never shows. The closing dialog comes last. |
| Batch.ConcludeAccounting | font_installer.py:444-526 | Each font before the first `None` is counted once, with failures in order. The installer is called up to and including the first `None`, or for all fonts when there is none. An exception reaches the `except` clause if and only if the loop aborted or removing the temporary directory failed. The error dialog shows if and only if that happened in the corrected program; as written, it never shows. |
| Batch.BatchAccounting | font_installer.py:419-526 | Every run that gets a temporary directory is the loop above over the fonts found, so all of the loop's accounting holds, and every installation counts as system-wide. In every run, the error dialog shows only in the corrected program and only when an exception reached the `except` clause, and the closing dialog comes last. |
| Batch.CorrectedNeverAborts | font_installer.py:383-389 | With the corrected installer, no attempt returns `None`. |
| Batch.ConcludeWithoutNone | font_installer.py:456-476 | A loop without a `None` calls the installer for every font and counts each one once. Only a failing removal of the temporary directory then reaches the `except` clause. |
| Batch.CorrectedBatchAccountsForEveryFont | font_installer.py:456-470 | With the corrected installer, every font found is installed or listed as failed, in order, and the run is never cut short. |
| Batch.AsWrittenBatchLosesFonts | font_installer.py:383-385 | A font whose installation raises `PermissionError` aborts the run: neither it nor any later font is counted. The exception reaches the `except` clause, but no error dialog shows. |
| Batch.AsWrittenErrorIsSilent | font_installer.py:472-476 | As written, the error dialog never shows, even in a run where an exception reached the `except` clause, as one does whenever the temporary directory cannot be created. |
| Batch.CorrectedErrorIsReported | font_installer.py:432-476 | With the corrected program (both defects fixed), the error dialog shows if and only if an exception reached the `except` clause. Because the corrected installer never returns `None`, that happens if and only if the temporary directory cannot be created or removed. |
| UserDirs.FirstWritable | font_installer.py:607-619 | The first candidate whose test succeeds, or none exactly when every candidate fails. |
| UserDirs.FirstWritableIsFirst | font_installer.py:607-617 | Every candidate before the chosen directory failed its test. |
| UserDirs.FindWritable | font_installer.py:607-619 | The candidate loop returns the first directory where creating it and writing and removing the probe file all succeed. |
| UserDirs.CheckUserFontDirectory | font_installer.py:601-619 | The result is the first writable of the two candidates, and it lies below the home directory. |
| Fixtures.MemberAccepted | font_installer.py:318-321 | A plain member `head + stem + ext` is taken if and only if its lower-cased extension is a font extension. |
| Fixtures.ItalicIsFont | FontFlow/utilities/create_test_fonts.py:19 | `TestFont-Italic.otf` is extracted. |
| Fixtures.ReadmeIsNotFont | FontFlow/utilities/create_test_fonts.py:21 | `readme.txt` is not extracted. |
| Fixtures.LightIsFont | FontFlow/utilities/create_test_fonts.py:23 | `subfolder/TestFont-Light.ttf` is extracted, exactly as the same file at the top level would be: the folder plays no part. |
| Fixtures.UpperCaseIsFont | font_installer.py:320 | The extension is compared in lower case, so a member named `TESTFONT.TTF` is extracted. |

## Left out

- The Tk GUI, the worker thread and `root.after` scheduling. Dialogs and the status line are values, without wording or emoji. A callback that raises only has its traceback reported by Tk, which is not modelled.
- `print` logging in `install_font_file` has no effect on results and is not modelled.
- Foreign calls are parameters, not behaviour: `tempfile.TemporaryDirectory`, ZIP reading and extraction, `shutil.copy2`, `AddFontResourceW`, `winreg`, `SendMessageTimeoutW`, `os.makedirs` and the probe file's write and removal, `os.path.expanduser`, and `os.environ`. The model says what the code does with each possible outcome.
- Extraction.ExtractFonts: the extracted path is the temporary directory joined with the member name. The `zipfile` library's own clean-up of member names (drive letters, `..`, absolute paths) is not modelled.
- Paths.Suffix: follows `PurePath.suffix` as Python 3.12 writes it: the final component from its last dot, when that dot is neither the first nor the last character. Other Python versions are not modelled. A version that took the suffix from `splitext` would give `..otf` no suffix, and the disagreement `Fixtures.DotStemScannedButFallbackLabel` states would not arise.
- Paths.Lower: lower-cases ASCII letters only. Non-ASCII letters never occur in the four extensions compared against, so the extension decision is exact. A non-ASCII extension would be folded differently by Python.
- Paths.Join: a directory that is a bare drive such as `C:` is joined by `ntpath.join` without a separator (`C:Fonts`), and the model inserts one (`C:\Fonts`). The case is reached when `WINDIR` is a bare drive (font_installer.py:339), or when the home directory `os.path.expanduser('~')` is one, as it can be through `USERPROFILE` (font_installer.py:604-605).
- Paths.Basename: a drive prefix such as `C:name` and `pathlib` normalisation (repeated separators, trailing separators) are not modelled.
- RegistryNames.FontRegistryName: the `except` branch of `get_font_name_from_file` (font_installer.py:415-417) is not modelled. Nothing in its `try` block can raise for a string argument.
- UserDirs.CheckUserFontDirectory: a probe file left behind when its removal fails is not modelled; only the returned directory is.
- The fixture script's remaining members (`TestFont-Regular.ttf`, `TestFont-Bold.ttf`, `TestFont-BoldItalic.otf`, `license.txt`) are not restated. Each is classified exactly like the member of the same kind that is, since `Fixtures.MemberAccepted` covers every such name.
- The rest of the repository: the standalone build, icon conversion and compatibility scripts.

## Findings

| source | as written | input that shows it | evidently intended | confidence | as-written member | corrected member |
|---|---|---|---|---|---|---|
| font_installer.py:383-385 | The `PermissionError` handler in `install_font_file` ends in a bare `return`, so the function returns `None`. The worker unpacks that into `success, install_type` (line 462), which raises `TypeError`. The worker's `except Exception` (line 472) catches it and the loop ends. | Two fonts, where copying the first raises `PermissionError` (for example, running without administrator rights). The first font is neither installed nor listed as failed, the second is never attempted, and no dialog reports the error (see the next row). | Fall through to `(False, "unknown error")` like the generic handler, so every font is installed or listed as failed. | not executed | Batch.AsWrittenBatchLosesFonts | Batch.CorrectedBatchAccountsForEveryFont |
| font_installer.py:472-476 | The `except Exception as e` clause schedules `lambda: messagebox.showerror(..., str(e))` with `root.after`. Python unbinds `e` when the clause ends, and the callback runs later on the GUI thread, so it raises `NameError` and no dialog appears. | The temporary directory cannot be created, or copying a font raises `PermissionError` as in the previous row. The exception reaches the `except` clause, but the user sees only the closing dialog. | Show the "Installation Error" dialog, for example by binding the exception as a default argument of the callback. The corrected program fixes this row and the previous one together. Its dialog clause does not depend on the installer fix; only the condition under which an exception is raised does. | not executed | Batch.AsWrittenErrorIsSilent | Batch.CorrectedErrorIsReported |

=== FILE: batch.dfy ===
/**
 The installation worker: extract the fonts of every selected archive, install them one
 by one, count the outcomes, and build the status line and the closing dialog.
 */
module Batch {
  import opened Common
  import opened Paths
  import opened Extraction
  import opened Install

  /** The tag fragment the worker looks for to count a per-user installation. */
  const UserLevel := "user-level"
  /** How many failures the completion message lists. */
  const SummaryFailureLimit: nat := 5
  /** How many failures the failure dialog lists. */
  const DetailFailureLimit: nat := 10

  /** A font that was not installed, with the tag `install_font_file` gave. */
  datatype Failure = Failure(fontName: string, reason: string)

  /** One call of `install_font_file`: the font's file name and the value returned. */
  datatype Attempt = Attempt(fontName: string, result: InstallResult)

  /** The worker's counters. `aborted` records that an exception ended the loop. */
  datatype Tally = Tally(installed: nat, system: nat, user: nat, failed: seq<Failure>, aborted: bool)

  const Start := Tally(0, 0, 0, [], false)

  /** Python's `part in text` on strings. */
  predicate Contains(text: string, part: string) {
    part <= text || (|text| > 0 && Contains(text[1..], part))
  }

  /** One iteration of the loop. Unpacking a `None` raises `TypeError`, which leaves the
      loop for the worker's `except` clause; later attempts are never counted. */
  function Count(t: Tally, a: Attempt): Tally {
    if t.aborted then t
    else match a.result
      case NoneReturned => t.(aborted := true)
      case Returned(success, tag) =>
        if success then
          t.(installed := t.installed + 1,
             system := if tag == SystemWide then t.system + 1 else t.system,
             user := if tag != SystemWide && Contains(tag, UserLevel) then t.user + 1 else t.user)
        else t.(failed := t.failed + [Failure(a.fontName, tag)])
  }

  /** The counters after a sequence of attempts, as a left fold. */
  function TallyOf(attempts: seq<Attempt>): Tally {
    if |attempts| == 0 then Start
    else Count(TallyOf(attempts[..|attempts| - 1]), attempts[|attempts| - 1])
  }

  /** Once the loop has been left, nothing later changes the counters. */
  lemma {:induction false} AbortIsFinal(done: seq<Attempt>, rest: seq<Attempt>)
    requires TallyOf(done).aborted
    ensures TallyOf(done + rest) == TallyOf(done)
    decreases |rest|
  {
    if |rest| > 0 {
      var all := done + rest;
      assert all[..|all| - 1] == done + rest[..|rest| - 1];
      AbortIsFinal(done, rest[..|rest| - 1]);
    } else {
      assert done + rest == done;
    }
  }

  /** The counting loop of `install_fonts_thread`. */
  method TallyAttempts(attempts: seq<Attempt>) returns (t: Tally)
    ensures t == TallyOf(attempts)
  {
    t := Start;
    var i := 0;
    while i < |attempts|
      invariant 0 <= i <= |attempts|
      invariant t == TallyOf(attempts[..i]) && !t.aborted
    {
      var a := attempts[i];
      assert attempts[..i + 1][..i] == attempts[..i];
      match a.result {
        case NoneReturned =>
          t := t.(aborted := true);
          AbortIsFinal(attempts[..i + 1], attempts[i + 1..]);
          assert attempts[..i + 1] + attempts[i + 1..] == attempts;
          return;
        case Returned(success, tag) =>
          if success {
            t := t.(installed := t.installed + 1);
            if tag == SystemWide {
              t := t.(system := t.system + 1);
            } else if Contains(tag, UserLevel) {
              t := t.(user := t.user + 1);
            }
          } else {
            t := t.(failed := t.failed + [Failure(a.fontName, tag)]);
          }
      }
      i := i + 1;
    }
    assert attempts[..i] == attempts;
  }

  /** Every attempt returned a tuple. */
  predicate AllReturned(attempts: seq<Attempt>) {
    forall i :: 0 <= i < |attempts| ==> attempts[i].result.Returned?
  }

  /** Reference list of failures: the attempts that returned `(False, tag)`, in order. */
  function FailuresOf(attempts: seq<Attempt>): seq<Failure> {
    if |attempts| == 0 then []
    else
      var a := attempts[0];
      (if a.result.Returned? && !a.result.success then [Failure(a.fontName, a.result.tag)] else [])
      + FailuresOf(attempts[1..])
  }

  lemma {:induction false} FailuresOfSnoc(attempts: seq<Attempt>, a: Attempt)
    ensures FailuresOf(attempts + [a]) == FailuresOf(attempts) + FailuresOf([a])
  {
    if |attempts| > 0 {
      assert (attempts + [a])[1..] == attempts[1..] + [a];
      FailuresOfSnoc(attempts[1..], a);
    } else {
      assert attempts + [a] == [a];
    }
  }

  /** When every attempt returns a tuple, each one adds exactly one to the installed count
      or to the failure list, the failures keep processing order, and the system and
      user counts never exceed the installed count. */
  lemma {:induction false} TallyAccountsForEveryAttempt(attempts: seq<Attempt>)
    requires AllReturned(attempts)
    ensures var t := TallyOf(attempts);
            && !t.aborted
            && t.installed + |t.failed| == |attempts|
            && t.failed == FailuresOf(attempts)
            && t.system + t.user <= t.installed
  {
    if |attempts| > 0 {
      var n := |attempts|;
      var done := attempts[..n - 1];
      assert AllReturned(done) by {
        forall i | 0 <= i < |done|
          ensures done[i].result.Returned?
        {
          assert done[i] == attempts[i];
        }
      }
      TallyAccountsForEveryAttempt(done);
      FailuresOfSnoc(done, attempts[n - 1]);
      assert done + [attempts[n - 1]] == attempts;
    }
  }

  /** Successes tagged "system-wide" only: the user-level count stays zero and every
      installation counts as system-wide. */
  lemma {:induction false} SystemOnlyTally(attempts: seq<Attempt>)
    requires forall i :: 0 <= i < |attempts| && attempts[i].result.Returned? && attempts[i].result.success
                         ==> attempts[i].result.tag == SystemWide
    ensures TallyOf(attempts).user == 0 && TallyOf(attempts).system == TallyOf(attempts).installed
  {
    if |attempts| > 0 {
      var n := |attempts|;
      var done := attempts[..n - 1];
      forall i | 0 <= i < |done| && done[i].result.Returned? && done[i].result.success
        ensures done[i].result.tag == SystemWide
      {
        assert done[i] == attempts[i];
      }
      SystemOnlyTally(done);
    }
  }

  /** The counters of any run of the loop: the attempts before the first `None` are
      each counted once (installed or failed, failures in order); a `None` ends the loop
      and marks the run as aborted. */
  lemma TallyOfRun(attempts: seq<Attempt>)
    ensures var t := TallyOf(attempts);
            var k := FirstNone(attempts);
            && (t.aborted <==> k < |attempts|)
            && t.installed + |t.failed| == k
            && t.failed == FailuresOf(attempts[..k])
            && t.system + t.user <= t.installed
  {
    var done := attempts[..FirstNone(attempts)];
    ReturnedBeforeNone(attempts);
    TallyUpToNone(attempts);
    TallyAccountsForEveryAttempt(done);
  }

  /** The attempts before the first `None` all returned a tuple. */
  lemma ReturnedBeforeNone(attempts: seq<Attempt>)
    ensures AllReturned(attempts[..FirstNone(attempts)])
  {
    var done := attempts[..FirstNone(attempts)];
    forall i | 0 <= i < |done|
      ensures done[i].result.Returned?
    {
      assert done[i] == attempts[i];
    }
  }

  /** The counters of a run are those of the attempts before the first `None`, marked as
      aborted when there is such an attempt. */
  lemma TallyUpToNone(attempts: seq<Attempt>)
    ensures var k := FirstNone(attempts);
            TallyOf(attempts) == if k < |attempts| then TallyOf(attempts[..k]).(aborted := true)
                                 else TallyOf(attempts[..k])
  {
    var k := FirstNone(attempts);
    if k < |attempts| {
      ReturnedBeforeNone(attempts);
      TallyAbortsAt(attempts, k);
    } else {
      assert attempts[..k] == attempts;
    }
  }

  /** An attempt that returns `None` after attempts that all returned a tuple ends the
      loop: the counters are those of the attempts before it, and everything after it is
      lost. */
  lemma TallyAbortsAt(attempts: seq<Attempt>, k: nat)
    requires k < |attempts|
    requires AllReturned(attempts[..k])
    requires attempts[k].result.NoneReturned?
    ensures TallyOf(attempts) == TallyOf(attempts[..k]).(aborted := true)
  {
    TallyThroughNone(attempts, k);
    TallyAfterAbort(attempts, k);
  }

  /** The `None` itself only marks the counters as aborted. */
  lemma TallyThroughNone(attempts: seq<Attempt>, k: nat)
    requires k < |attempts|
    requires AllReturned(attempts[..k])
    requires attempts[k].result.NoneReturned?
    ensures TallyOf(attempts[..k + 1]) == TallyOf(attempts[..k]).(aborted := true)
  {
    assert attempts[..k + 1][..k] == attempts[..k];
    TallyAccountsForEveryAttempt(attempts[..k]);
  }

  /** Attempts after the one that left the loop change nothing. */
  lemma TallyAfterAbort(attempts: seq<Attempt>, k: nat)
    requires k < |attempts|
    requires TallyOf(attempts[..k + 1]).aborted
    ensures TallyOf(attempts) == TallyOf(attempts[..k + 1])
  {
    AbortIsFinal(attempts[..k + 1], attempts[k + 1..]);
    assert attempts[..k + 1] + attempts[k + 1..] == attempts;
  }

  /** Index of the first attempt that returned `None`, or the number of attempts. */
  function FirstNone(attempts: seq<Attempt>): (k: nat)
    ensures k <= |attempts|
    ensures k < |attempts| ==> attempts[k].result.NoneReturned?
    ensures forall j :: 0 <= j < k ==> attempts[j].result.Returned?
  {
    if |attempts| == 0 then 0
    else if attempts[0].result.NoneReturned? then 0
    else 1 + FirstNone(attempts[1..])
  }

  // ---------------------------------------------------------------------------------
  // Messages

  /** The lines of the closing messages, without their wording and decoration. */
  datatype Line =
    | Headline(installed: nat, total: nat)
    | SystemWideCount(count: nat)
    | SystemRegistryNote
    | UserCount(count: nat)
    | UserRegistryNote
    | FailureCount(count: nat)
    | FailureItem(failure: Failure)
    | AndMore(count: nat)
    | AndMoreFailures(count: nat)
    | AvailableNote
    | PersistNote

  function Min(a: nat, b: nat): nat {
    if a <= b then a else b
  }

  /** One line per failure, for the first `limit` failures (`failed[:limit]`). */
  function Items(failed: seq<Failure>, limit: nat): (r: seq<Line>)
    ensures |r| == Min(|failed|, limit)
    ensures forall i :: 0 <= i < |r| ==> r[i] == FailureItem(failed[i])
  {
    if |failed| == 0 || limit == 0 then []
    else [FailureItem(failed[0])] + Items(failed[1..], limit - 1)
  }

  /** Number of failures a message lists one by one. */
  function Listed(lines: seq<Line>): nat {
    if |lines| == 0 then 0
    else (if lines[0].FailureItem? then 1 else 0) + Listed(lines[1..])
  }

  /** Number of failures a message only counts ("... and n more"). */
  function Summarised(lines: seq<Line>): nat {
    if |lines| == 0 then 0
    else (if lines[0].AndMore? || lines[0].AndMoreFailures? then lines[0].count else 0) + Summarised(lines[1..])
  }

  lemma {:induction false} ListedAppend(a: seq<Line>, b: seq<Line>)
    ensures Listed(a + b) == Listed(a) + Listed(b)
    ensures Summarised(a + b) == Summarised(a) + Summarised(b)
  {
    if |a| > 0 {
      assert (a + b)[1..] == a[1..] + b;
      ListedAppend(a[1..], b);
    } else {
      assert a + b == b;
    }
  }

  lemma ListedCons(l: Line, b: seq<Line>)
    ensures Listed([l] + b) == (if l.FailureItem? then 1 else 0) + Listed(b)
    ensures Summarised([l] + b) == (if l.AndMore? || l.AndMoreFailures? then l.count else 0) + Summarised(b)
  {
    assert ([l] + b)[1..] == b;
  }

  lemma {:induction false} ItemsListed(failed: seq<Failure>, limit: nat)
    ensures Listed(Items(failed, limit)) == Min(|failed|, limit)
    ensures Summarised(Items(failed, limit)) == 0
  {
    if |failed| > 0 && limit > 0 {
      ItemsListed(failed[1..], limit - 1);
      ListedAppend([FailureItem(failed[0])], Items(failed[1..], limit - 1));
    }
  }

  /** The line that counts the failures left out of a listing: "... and n more" in the
      completion message, "... and n more failures" in the failure dialog. */
  function MoreLine(detailed: bool, n: nat): Line {
    if detailed then AndMoreFailures(n) else AndMore(n)
  }

  /** The first `limit` failures, one line each, then a line counting the others when
      there are more than `limit`. */
  function Truncated(failed: seq<Failure>, limit: nat, detailed: bool): seq<Line> {
    Items(failed, limit) + (if |failed| > limit then [MoreLine(detailed, |failed| - limit)] else [])
  }

  /** A truncated listing shows the first `min(n, limit)` failures in order, adds the
      counting line exactly when there are more than `limit`, and so accounts for every
      failure. */
  lemma TruncatedBounded(failed: seq<Failure>, limit: nat, detailed: bool)
    ensures var r := Truncated(failed, limit, detailed);
            && Listed(r) == Min(|failed|, limit)
            && (Summarised(r) > 0 <==> |failed| > limit)
            && Listed(r) + Summarised(r) == |failed|
            && r[..Listed(r)] == Items(failed, limit)
  {
    var items := Items(failed, limit);
    var more := if |failed| > limit then [MoreLine(detailed, |failed| - limit)] else [];
    assert Listed(more) == 0 && Summarised(more) == |failed| - Min(|failed|, limit) by {
      if |failed| > limit {
        assert more[1..] == [];
      }
    }
    ItemsListed(failed, limit);
    ListedAppend(items, more);
    assert (items + more)[..|items|] == items;
  }

  /** A failure listing headed by the number of failures; nothing at all when there are
      none. */
  function Headed(failed: seq<Failure>, limit: nat): seq<Line> {
    if failed == [] then []
    else [FailureCount(|failed|)] + Truncated(failed, limit, false)
  }

  /** The failure part of the completion message: a count, then the first five failures
      and a line counting the others when there are more than five. */
  function SummaryFailures(failed: seq<Failure>): seq<Line> {
    Headed(failed, SummaryFailureLimit)
  }

  /** The failure details of the failure dialog: the first ten failures and a line
      counting the others when there are more than ten. */
  function FailureDetails(failed: seq<Failure>): seq<Line> {
    Truncated(failed, DetailFailureLimit, true)
  }

  /** A headed listing is empty exactly when there are no failures; otherwise it lists the
      first `min(n, limit)` failures in order right after the count, adds the counting
      line exactly when there are more than `limit`, and so accounts for every failure. */
  predicate HeadedListing(r: seq<Line>, failed: seq<Failure>, limit: nat) {
    && (failed == [] <==> r == [])
    && Listed(r) == Min(|failed|, limit)
    && (Summarised(r) > 0 <==> |failed| > limit)
    && Listed(r) + Summarised(r) == |failed|
    && (failed != [] ==> 1 + Listed(r) <= |r| && r[1..1 + Listed(r)] == Items(failed, limit))
  }

  lemma HeadedBounded(failed: seq<Failure>, limit: nat)
    ensures HeadedListing(Headed(failed, limit), failed, limit)
  {
    if failed != [] {
      var body := Truncated(failed, limit, false);
      TruncatedBounded(failed, limit, false);
      var r := [FailureCount(|failed|)] + body;
      ListedCons(FailureCount(|failed|), body);
      assert r[1..] == body;
      assert r == Headed(failed, limit);
    }
  }

  /** The completion message lists the first `min(n, 5)` failures in order, adds an
      "and n-5 more" line exactly when there are more than five, and so accounts for
      every failure. */
  lemma SummaryFailuresBounded(failed: seq<Failure>)
    ensures HeadedListing(SummaryFailures(failed), failed, SummaryFailureLimit)
  {
    HeadedBounded(failed, SummaryFailureLimit);
  }

  /** The failure dialog lists the first `min(n, 10)` failures in order, adds an "and
      n-10 more failures" line exactly when there are more than ten, and so accounts for
      every failure. */
  lemma FailureDetailsBounded(failed: seq<Failure>)
    ensures var r := FailureDetails(failed);
            && Listed(r) == Min(|failed|, DetailFailureLimit)
            && (Summarised(r) > 0 <==> |failed| > DetailFailureLimit)
            && Listed(r) + Summarised(r) == |failed|
            && r[..Listed(r)] == Items(failed, DetailFailureLimit)
  {
    TruncatedBounded(failed, DetailFailureLimit, true);
  }

  /** The completion message of a run that installed something. */
  function CompletionMessage(t: Tally, total: nat): seq<Line> {
    [Headline(t.installed, total)]
    + (if t.system > 0 then [SystemWideCount(t.system), SystemRegistryNote] else [])
    + (if t.user > 0 then [UserCount(t.user), UserRegistryNote] else [])
    + SummaryFailures(t.failed)
    + [AvailableNote, PersistNote]
  }

  /** A line that belongs to a failure listing. */
  predicate FailureLine(l: Line) {
    l.FailureCount? || l.FailureItem? || l.AndMore? || l.AndMoreFailures?
  }

  /** A headed listing is made of failure lines only. */
  lemma HeadedLines(failed: seq<Failure>, limit: nat)
    ensures forall l :: l in Headed(failed, limit) ==> FailureLine(l)
  {
    if failed != [] {
      var items := Items(failed, limit);
      assert forall l :: l in items ==> l.FailureItem?;
    }
  }

  /** Lines that list or count no failure. */
  lemma {:induction false} NoFailureLines(lines: seq<Line>)
    requires forall l :: l in lines ==> !FailureLine(l)
    ensures Listed(lines) == 0 && Summarised(lines) == 0
  {
    if |lines| > 0 {
      assert lines[0] in lines;
      NoFailureLines(lines[1..]);
    }
  }

  /** The completion message opens with the headline, shows the system-wide count and the
      per-user count each exactly when it is positive, lists the failures as a listing
      headed by their count (at most five, the rest counted), and closes with the two
      notes. */
  lemma CompletionMessageContents(t: Tally, total: nat)
    ensures var m := CompletionMessage(t, total);
            && m[0] == Headline(t.installed, total)
            && (SystemWideCount(t.system) in m <==> t.system > 0)
            && (UserCount(t.user) in m <==> t.user > 0)
            && Listed(m) == Min(|t.failed|, SummaryFailureLimit)
            && Listed(m) + Summarised(m) == |t.failed|
            && m[|m| - 2..] == [AvailableNote, PersistNote]
  {
    var head := [Headline(t.installed, total)];
    var sys := if t.system > 0 then [SystemWideCount(t.system), SystemRegistryNote] else [];
    var usr := if t.user > 0 then [UserCount(t.user), UserRegistryNote] else [];
    var fails := SummaryFailures(t.failed);
    var notes := [AvailableNote, PersistNote];
    var front := head + sys + usr;
    var m := front + fails + notes;
    assert CompletionMessage(t, total) == m;
    HeadedLines(t.failed, SummaryFailureLimit);
    assert SystemWideCount(t.system) !in fails && UserCount(t.user) !in fails;
    assert SystemWideCount(t.system) in m <==> SystemWideCount(t.system) in sys;
    assert UserCount(t.user) in m <==> UserCount(t.user) in usr;
    assert Listed(m) == Listed(fails) && Summarised(m) == Summarised(fails) by {
      NoFailureLines(front);
      NoFailureLines(notes);
      ListedAppend(front, fails);
      ListedAppend(front + fails, notes);
    }
    HeadedBounded(t.failed, SummaryFailureLimit);
    assert m[|m| - 2..] == notes;
  }

  /** The modal dialogs the worker shows, in order. */
  datatype Dialog =
    | ExtractionError(archiveName: string, error: ArchiveError)
    | NoFontsFound
    | InstallationError
    | InstallationComplete(lines: seq<Line>)
    | InstallationFailed(details: seq<Line>)

  /** The status line left at the end of a run. */
  datatype Status = Complete(installed: nat, total: nat) | NothingInstalled

  /** The `finally` clause: success message when anything was installed, failure dialog
      otherwise. */
  function FinalDialog(t: Tally, total: nat): Dialog {
    if t.installed > 0 then InstallationComplete(CompletionMessage(t, total))
    else InstallationFailed(FailureDetails(t.failed))
  }

  function StatusOf(t: Tally, total: nat): Status {
    if t.installed > 0 then Complete(t.installed, total) else NothingInstalled
  }

  // ---------------------------------------------------------------------------------
  // The worker

  /** `list.extend` applied part after part: the parts concatenated in order. */
  function Concat<T>(parts: seq<seq<T>>): seq<T> {
    if |parts| == 0 then [] else parts[0] + Concat(parts[1..])
  }

  /** The fonts each archive's scan yields, archive by archive. */
  function ScannedFonts(archives: seq<Archive>, tempDir: string): seq<seq<string>> {
    seq(|archives|, i requires 0 <= i < |archives| => ExtractFonts(archives[i], tempDir).fonts)
  }

  /** The error dialog an archive's scan shows: one naming the archive when the scan
      reports an error, none otherwise. */
  function ScanDialog(a: Archive, tempDir: string): seq<Dialog> {
    var e := ExtractFonts(a, tempDir).error;
    if e.Some? then [ExtractionError(Basename(a.path), e.value)] else []
  }

  /** The error dialogs of the scans, archive by archive. */
  function ScanDialogs(archives: seq<Archive>, tempDir: string): seq<seq<Dialog>> {
    seq(|archives|, i requires 0 <= i < |archives| => ScanDialog(archives[i], tempDir))
  }

  /** The per-archive views of the archives after the first are the tails of the views of
      all of them. */
  lemma ScansOfTail(archives: seq<Archive>, tempDir: string)
    requires |archives| > 0
    ensures ScannedFonts(archives, tempDir)[1..] == ScannedFonts(archives[1..], tempDir)
    ensures ScanDialogs(archives, tempDir)[1..] == ScanDialogs(archives[1..], tempDir)
  {
    ScannedFontsOfTail(archives, tempDir);
    ScanDialogsOfTail(archives, tempDir);
  }

  lemma ScannedFontsOfTail(archives: seq<Archive>, tempDir: string)
    requires |archives| > 0
    ensures ScannedFonts(archives, tempDir)[1..] == ScannedFonts(archives[1..], tempDir)
  {
    var all, tail := ScannedFonts(archives, tempDir), ScannedFonts(archives[1..], tempDir);
    assert |all[1..]| == |tail|;
    forall i | 0 <= i < |tail|
      ensures all[1..][i] == tail[i]
    {
      assert archives[1..][i] == archives[i + 1];
    }
  }

  lemma ScanDialogsOfTail(archives: seq<Archive>, tempDir: string)
    requires |archives| > 0
    ensures ScanDialogs(archives, tempDir)[1..] == ScanDialogs(archives[1..], tempDir)
  {
    var all, tail := ScanDialogs(archives, tempDir), ScanDialogs(archives[1..], tempDir);
    assert |all[1..]| == |tail|;
    forall i | 0 <= i < |tail|
      ensures all[1..][i] == tail[i]
    {
      assert archives[1..][i] == archives[i + 1];
    }
  }

  /** The fonts of all archives, in selection order, and the error dialogs the scanner
      showed on the way. */
  datatype Collected = Collected(fonts: seq<string>, dialogs: seq<Dialog>)

  /** The extraction loop: every archive's fonts are appended in selection order, and an
      extraction-error dialog naming the archive shows for exactly the archives whose scan
      reports an error. */
  function ExtractAll(archives: seq<Archive>, tempDir: string): (r: Collected)
    ensures r.fonts == Concat(ScannedFonts(archives, tempDir))
    ensures r.dialogs == Concat(ScanDialogs(archives, tempDir))
    ensures |r.dialogs| <= |archives|
    ensures forall d :: d in r.dialogs ==> d.ExtractionError?
  {
    if |archives| == 0 then Collected([], [])
    else
      var a := archives[0];
      var rest := ExtractAll(archives[1..], tempDir);
      ScansOfTail(archives, tempDir);
      Collected(ExtractFonts(a, tempDir).fonts + rest.fonts, ScanDialog(a, tempDir) + rest.dialogs)
  }

  /** Every font handed to the installer carries an accepted extension. */
  lemma {:induction false} CollectedAreFonts(archives: seq<Archive>, tempDir: string)
    ensures forall p :: p in ExtractAll(archives, tempDir).fonts ==> Lower(Suffix(p)) in FontExtensions
  {
    if |archives| > 0 {
      ExtractedAreFonts(archives[0], tempDir);
      CollectedAreFonts(archives[1..], tempDir);
    }
  }

  /** The runs of `install_font_file` for every font, `envs(i)` being what the system does
      for the i-th one. */
  function InstallRuns(v: Variant, fonts: seq<string>, windir: Option<string>, envs: nat -> FontEnv): (r: seq<InstallRun>)
    ensures |r| == |fonts|
    ensures forall i :: 0 <= i < |fonts| ==> r[i] == InstallWith(v, fonts[i], windir, envs(i))
  {
    seq(|fonts|, i requires 0 <= i < |fonts| => InstallWith(v, fonts[i], windir, envs(i)))
  }

  function AttemptsOf(fonts: seq<string>, runs: seq<InstallRun>): (r: seq<Attempt>)
    requires |fonts| == |runs|
    ensures |r| == |fonts|
    ensures forall i :: 0 <= i < |fonts| ==> r[i] == Attempt(Basename(fonts[i]), runs[i].result)
  {
    seq(|fonts|, i requires 0 <= i < |fonts| => Attempt(Basename(fonts[i]), runs[i].result))
  }

  /** What `tempfile.TemporaryDirectory()` does: creating the directory raises, or the
      directory is created at `path` and `removed` says whether removing it on leaving the
      `with` block completes. */
  datatype TempDir = NotCreated | Created(path: string, removed: bool)

  /** The dialog the worker's `except` clause schedules. As written, its callback reads
      the exception name, which Python unbinds when the `except` clause ends; the callback
      runs later on the GUI thread, raises `NameError` there, and shows nothing. The
      corrected program binds the exception when it makes the callback, and the error
      dialog shows. */
  function ErrorDialogs(v: Variant): seq<Dialog> {
    match v
    case AsWritten => []
    case Corrected => [InstallationError]
  }

  /** What a run of the worker leaves behind: the number of fonts found, the calls of
      `install_font_file` actually made, the counters, whether an exception reached the
      worker's `except` clause, the dialogs and the status line. */
  datatype Report = Report(total: nat, runs: seq<InstallRun>, tally: Tally, raised: bool, dialogs: seq<Dialog>, status: Status)

  /** The dialogs at the end of a run: those already shown, what the `except` clause
      schedules when an exception reached it, then the closing dialog. */
  function Closing(v: Variant, shown: seq<Dialog>, raised: bool, t: Tally, total: nat): seq<Dialog> {
    shown + (if raised then ErrorDialogs(v) else []) + [FinalDialog(t, total)]
  }

  /** The rest of the worker once the fonts are found (with the dialogs shown while finding
      them): the installation loop over the runs `install_font_file` would have for each
      font, the removal of the temporary directory, and the `finally` clause. A removal
      that raises replaces the pending `return` or exception with its own, which the
      `except` clause catches. */
  function Conclude(v: Variant, found: seq<Dialog>, fonts: seq<string>, runs: seq<InstallRun>, removed: bool): (r: Report)
    requires |fonts| == |runs|
    ensures r.total == |fonts|
    ensures |r.runs| <= r.total
    ensures r.status.Complete? <==> r.tally.installed > 0
  {
    var total := |fonts|;
    if total == 0 then
      Report(0, [], Start, !removed, Closing(v, found + [NoFontsFound], !removed, Start, 0), StatusOf(Start, 0))
    else
      var attempts := AttemptsOf(fonts, runs);
      var t := TallyOf(attempts);
      var k := FirstNone(attempts);
      var called := if k < total then k + 1 else total;
      var raised := t.aborted || !removed;
      Report(
        total,
        runs[..called],
        t,
        raised,
        Closing(v, found, raised, t, total),
        StatusOf(t, total))
  }

  /*
   What a concluded batch guarantees, in three groups: the counters, the calls of the
   installer that were made, and the dialogs shown.
   */

  /** The runs before the first `None` are each counted once as installed or failed, the
      failures keep their order, a `None` marks the run as aborted, and when only
      "system-wide" successes occur every installation counts as system-wide. */
  predicate ConcludeCounts(v: Variant, found: seq<Dialog>, fonts: seq<string>, runs: seq<InstallRun>, removed: bool)
    requires |fonts| == |runs|
  {
    var r := Conclude(v, found, fonts, runs, removed);
    var attempts := AttemptsOf(fonts, runs);
    var k := FirstNone(attempts);
    && (r.tally.aborted <==> k < r.total)
    && r.tally.installed + |r.tally.failed| == k
    && r.tally.failed == FailuresOf(attempts[..k])
    && r.tally.user == 0 && r.tally.system == r.tally.installed
  }

  /** The loop calls the installer for the fonts up to and including the first whose
      installation returns `None`, and for all of them when none does. */
  predicate ConcludeCalls(v: Variant, found: seq<Dialog>, fonts: seq<string>, runs: seq<InstallRun>, removed: bool)
    requires |fonts| == |runs|
  {
    var r := Conclude(v, found, fonts, runs, removed);
    var k := FirstNone(AttemptsOf(fonts, runs));
    && |r.runs| == (if k < r.total then k + 1 else r.total)
    && r.runs == runs[..|r.runs|]
  }

  /** An exception reaches the `except` clause exactly when the loop was aborted or the
      temporary directory could not be removed; the error dialog shows exactly when that
      happens in the corrected program, never as written; the closing dialog comes last. */
  predicate ConcludeDialogs(v: Variant, found: seq<Dialog>, fonts: seq<string>, runs: seq<InstallRun>, removed: bool)
    requires |fonts| == |runs|
  {
    var r := Conclude(v, found, fonts, runs, removed);
    && (r.raised <==> r.tally.aborted || !removed)
    && (InstallationError in r.dialogs <==> r.raised && v == Corrected)
    && r.dialogs[|r.dialogs| - 1] == FinalDialog(r.tally, r.total)
  }

  /** Only successes tagged "system-wide" occur among the runs. */
  predicate SystemWideSuccesses(runs: seq<InstallRun>) {
    forall i :: 0 <= i < |runs| && runs[i].result.Returned? && runs[i].result.success
                ==> runs[i].result.tag == SystemWide
  }

  lemma ConcludeAccounting(v: Variant, found: seq<Dialog>, fonts: seq<string>, runs: seq<InstallRun>, removed: bool)
    requires |fonts| == |runs|
    requires forall d :: d in found ==> d.ExtractionError?
    requires SystemWideSuccesses(runs)
    ensures ConcludeCounts(v, found, fonts, runs, removed)
    ensures ConcludeCalls(v, found, fonts, runs, removed)
    ensures ConcludeDialogs(v, found, fonts, runs, removed)
  {
    if |fonts| == 0 {
      ConcludeWithoutFonts(v, found, fonts, runs, removed);
    } else {
      CountsWithFonts(v, found, fonts, runs, removed);
      CallsWithFonts(v, found, fonts, runs, removed);
      DialogsWithFonts(v, found, fonts, runs, removed);
    }
  }

  lemma ConcludeWithoutFonts(v: Variant, found: seq<Dialog>, fonts: seq<string>, runs: seq<InstallRun>, removed: bool)
    requires |fonts| == |runs| == 0
    requires forall d :: d in found ==> d.ExtractionError?
    ensures ConcludeCounts(v, found, fonts, runs, removed)
    ensures ConcludeCalls(v, found, fonts, runs, removed)
    ensures ConcludeDialogs(v, found, fonts, runs, removed)
  {
    assert AttemptsOf(fonts, runs) == [];
    ClosingDialogs(v, found + [NoFontsFound], !removed, Start, 0);
  }

  lemma CountsWithFonts(v: Variant, found: seq<Dialog>, fonts: seq<string>, runs: seq<InstallRun>, removed: bool)
    requires |fonts| == |runs| > 0
    requires SystemWideSuccesses(runs)
    ensures ConcludeCounts(v, found, fonts, runs, removed)
  {
    var attempts := AttemptsOf(fonts, runs);
    forall i | 0 <= i < |attempts| && attempts[i].result.Returned? && attempts[i].result.success
      ensures attempts[i].result.tag == SystemWide
    {
      assert attempts[i].result == runs[i].result;
    }
    TallyOfRun(attempts);
    SystemOnlyTally(attempts);
  }

  lemma CallsWithFonts(v: Variant, found: seq<Dialog>, fonts: seq<string>, runs: seq<InstallRun>, removed: bool)
    requires |fonts| == |runs| > 0
    ensures ConcludeCalls(v, found, fonts, runs, removed)
  {
  }

  lemma DialogsWithFonts(v: Variant, found: seq<Dialog>, fonts: seq<string>, runs: seq<InstallRun>, removed: bool)
    requires |fonts| == |runs| > 0
    requires forall d :: d in found ==> d.ExtractionError?
    ensures ConcludeDialogs(v, found, fonts, runs, removed)
  {
    var r := Conclude(v, found, fonts, runs, removed);
    ClosingDialogs(v, found, r.raised, r.tally, r.total);
  }

  /** After dialogs that are not the error dialog, the error dialog shows exactly when an
      exception reached the `except` clause of the corrected program, and the closing
      dialog comes last. */
  lemma ClosingDialogs(v: Variant, shown: seq<Dialog>, raised: bool, t: Tally, total: nat)
    requires InstallationError !in shown
    ensures var ds := Closing(v, shown, raised, t, total);
            && (InstallationError in ds <==> raised && v == Corrected)
            && ds[|ds| - 1] == FinalDialog(t, total)
  {
  }

  /** `install_fonts_thread`, with the outcome of the temporary directory, the Windows
      directory and the system's behaviour for each font as parameters. */
  function RunBatch(v: Variant, archives: seq<Archive>, temp: TempDir, windir: Option<string>, envs: nat -> FontEnv): (r: Report)
    ensures |r.runs| <= r.total
    ensures r.status.Complete? <==> r.tally.installed > 0
    // no temporary directory: nothing is extracted or installed, the `except` clause runs,
    // and an empty failure dialog follows whatever it shows
    ensures temp.NotCreated? ==>
              && r.total == 0 && r.runs == [] && r.tally == Start && r.raised
              && r.status == NothingInstalled
              && r.dialogs == ErrorDialogs(v) + [InstallationFailed([])]
    ensures temp.Created? ==> r.total == |ExtractAll(archives, temp.path).fonts|
    // no font found: nothing is installed, the warning shows, then what the `except` clause
    // shows when the removal of the directory fails, then an empty failure dialog
    ensures temp.Created? && r.total == 0 ==>
              && r.runs == [] && r.tally == Start && r.status == NothingInstalled
              && (r.raised <==> !temp.removed)
              && r.dialogs == ExtractAll(archives, temp.path).dialogs + [NoFontsFound]
                              + (if temp.removed then [] else ErrorDialogs(v)) + [InstallationFailed([])]
  {
    assert FailureDetails([]) == [];
    match temp
    case NotCreated => Report(0, [], Start, true, Closing(v, [], true, Start, 0), StatusOf(Start, 0))
    case Created(path, removed) =>
      var collected := ExtractAll(archives, path);
      Conclude(v, collected.dialogs, collected.fonts, InstallRuns(v, collected.fonts, windir, envs), removed)
  }

  /** The attempts the loop would make for every font found. */
  function BatchAttempts(v: Variant, archives: seq<Archive>, tempDir: string, windir: Option<string>, envs: nat -> FontEnv): seq<Attempt> {
    var fonts := ExtractAll(archives, tempDir).fonts;
    AttemptsOf(fonts, InstallRuns(v, fonts, windir, envs))
  }

  /** Either variant tags every success "system-wide". */
  lemma SuccessIsSystemWide(v: Variant, fontPath: string, windir: Option<string>, env: FontEnv)
    ensures var r := InstallWith(v, fontPath, windir, env).result;
            r.Returned? && r.success ==> r.tag == SystemWide
  {
  }

  /** Every run of the worker that gets a temporary directory is the concluded loop over
      the fonts found, and satisfies the three accounting groups: installation stops at
      the first font whose installation returns `None`, the fonts before it are each
      counted once as installed or failed, the failures keep their order, and every
      installation counts as system-wide. In every run, the error dialog shows exactly
      when an exception reached the `except` clause of the corrected program, and the
      closing dialog comes last. */
  lemma BatchAccounting(v: Variant, archives: seq<Archive>, temp: TempDir, windir: Option<string>, envs: nat -> FontEnv)
    ensures temp.Created? ==>
            var c := ExtractAll(archives, temp.path);
            var runs := InstallRuns(v, c.fonts, windir, envs);
            && RunBatch(v, archives, temp, windir, envs) == Conclude(v, c.dialogs, c.fonts, runs, temp.removed)
            && ConcludeCounts(v, c.dialogs, c.fonts, runs, temp.removed)
            && ConcludeCalls(v, c.dialogs, c.fonts, runs, temp.removed)
            && ConcludeDialogs(v, c.dialogs, c.fonts, runs, temp.removed)
    ensures var r := RunBatch(v, archives, temp, windir, envs);
            && (InstallationError in r.dialogs <==> r.raised && v == Corrected)
            && r.dialogs[|r.dialogs| - 1] == FinalDialog(r.tally, r.total)
  {
    match temp
    case NotCreated =>
      ClosingDialogs(v, [], true, Start, 0);
    case Created(path, removed) =>
      var collected := ExtractAll(archives, path);
      var runs := InstallRuns(v, collected.fonts, windir, envs);
      forall i | 0 <= i < |runs| && runs[i].result.Returned? && runs[i].result.success
        ensures runs[i].result.tag == SystemWide
      {
        SuccessIsSystemWide(v, collected.fonts[i], windir, envs(i));
      }
      ConcludeAccounting(v, collected.dialogs, collected.fonts, runs, removed);
  }

  /** The corrected installer never returns `None`. */
  lemma CorrectedNeverAborts(fonts: seq<string>, windir: Option<string>, envs: nat -> FontEnv)
    ensures var attempts := AttemptsOf(fonts, InstallRuns(Corrected, fonts, windir, envs));
            FirstNone(attempts) == |attempts|
  {
    var attempts := AttemptsOf(fonts, InstallRuns(Corrected, fonts, windir, envs));
    forall i | 0 <= i < |attempts|
      ensures attempts[i].result.Returned?
    {
      assert attempts[i].result == InstallFontFileCorrected(fonts[i], windir, envs(i)).result;
    }
  }

  /** A concluded loop in which no installation returned `None` called the installer for
      every font and counted each one as installed or failed; only a failing removal of
      the temporary directory then reaches the `except` clause. */
  lemma ConcludeWithoutNone(v: Variant, found: seq<Dialog>, fonts: seq<string>, runs: seq<InstallRun>, removed: bool)
    requires |fonts| == |runs|
    requires forall d :: d in found ==> d.ExtractionError?
    requires SystemWideSuccesses(runs)
    requires FirstNone(AttemptsOf(fonts, runs)) == |fonts|
    ensures var r := Conclude(v, found, fonts, runs, removed);
            && !r.tally.aborted
            && |r.runs| == r.total
            && r.tally.installed + |r.tally.failed| == r.total
            && r.tally.failed == FailuresOf(AttemptsOf(fonts, runs))
            && (r.raised <==> !removed)
  {
    ConcludeAccounting(v, found, fonts, runs, removed);
    var attempts := AttemptsOf(fonts, runs);
    assert attempts[..|attempts|] == attempts;
  }

  /** With the corrected installer every font found is installed or listed as failed, in
      order, and the run is never cut short. */
  lemma CorrectedBatchAccountsForEveryFont(archives: seq<Archive>, temp: TempDir, windir: Option<string>, envs: nat -> FontEnv)
    ensures var r := RunBatch(Corrected, archives, temp, windir, envs);
            && !r.tally.aborted
            && |r.runs| == r.total
            && r.tally.installed + |r.tally.failed| == r.total
            && (temp.Created? ==> r.tally.failed == FailuresOf(BatchAttempts(Corrected, archives, temp.path, windir, envs)))
  {
    if temp.Created? {
      var c := ExtractAll(archives, temp.path);
      var runs := InstallRuns(Corrected, c.fonts, windir, envs);
      BatchAccounting(Corrected, archives, temp, windir, envs);
      CorrectedNeverAborts(c.fonts, windir, envs);
      forall i | 0 <= i < |runs| && runs[i].result.Returned? && runs[i].result.success
        ensures runs[i].result.tag == SystemWide
      {
        SuccessIsSystemWide(Corrected, c.fonts[i], windir, envs(i));
      }
      ConcludeWithoutNone(Corrected, c.dialogs, c.fonts, runs, temp.removed);
    }
  }

  /** With the installer as written, a font whose installation returns `None` stops the
      run: that font and every later one is neither installed nor listed as failed, and
      although the exception reaches the `except` clause, no error dialog tells the user. */
  lemma AsWrittenBatchLosesFonts(archives: seq<Archive>, path: string, removed: bool, windir: Option<string>, envs: nat -> FontEnv, i: nat)
    requires i < |ExtractAll(archives, path).fonts|
    requires PermissionErrorEscapes(envs(i))
    ensures var r := RunBatch(AsWritten, archives, Created(path, removed), windir, envs);
            && r.tally.aborted
            && r.tally.installed + |r.tally.failed| <= i < r.total
            && r.raised
            && InstallationError !in r.dialogs
  {
    var fonts := ExtractAll(archives, path).fonts;
    var attempts := BatchAttempts(AsWritten, archives, path, windir, envs);
    BatchAccounting(AsWritten, archives, Created(path, removed), windir, envs);
    assert attempts[i].result == InstallFontFile(fonts[i], windir, envs(i)).result;
  }

  /** As written, the error dialog never shows, not even when an exception reaches the
      `except` clause, as it does whenever the temporary directory cannot be created. */
  lemma AsWrittenErrorIsSilent(archives: seq<Archive>, temp: TempDir, windir: Option<string>, envs: nat -> FontEnv)
    ensures var r := RunBatch(AsWritten, archives, temp, windir, envs);
            && InstallationError !in r.dialogs
            && (temp.NotCreated? ==> r.raised)
  {
    BatchAccounting(AsWritten, archives, temp, windir, envs);
  }

  /** With the corrected program, the error dialog shows exactly when an exception reaches
      the `except` clause. Since the corrected installer never returns `None`, that happens
      exactly when the temporary directory cannot be created or removed. */
  lemma CorrectedErrorIsReported(archives: seq<Archive>, temp: TempDir, windir: Option<string>, envs: nat -> FontEnv)
    ensures var r := RunBatch(Corrected, archives, temp, windir, envs);
            && (InstallationError in r.dialogs <==> r.raised)
            && (r.raised <==> !(temp.Created? && temp.removed))
  {
    BatchAccounting(Corrected, archives, temp, windir, envs);
    CorrectedBatchAccountsForEveryFont(archives, temp, windir, envs);
  }
}

=== FILE: common.dfy ===
/** Small shared vocabulary: optional values and the outcome of a foreign call. */
module Common {

  /** A value that may be absent (Python's `None`). */
  datatype Option<T> = None | Some(value: T) {

    /** The wrapped value, or `default` when absent (`dict.get(key, default)`). */
    function GetOr(default: T): T {
      if Some? then value else default
    }
  }

  /** The exceptions the installer tells apart: `PermissionError` and everything else. */
  datatype Exc = PermissionError | OtherException

  /** What a foreign call whose return value is unused does: return, or raise. */
  datatype CallResult = Completed | Raised(exc: Exc)
}

=== FILE: extraction.dfy ===
/**
 The archive scanner: which members of a ZIP archive are extracted as fonts, and what is
 returned when the archive cannot be read or an extraction fails part-way.
 */
module Extraction {
  import opened Common
  import opened Paths

  /** The extensions (compared in lower case) of the files the installer accepts. */
  const FontExtensions: set<string> := {".ttf", ".otf", ".ttc", ".otc"}

  /** `zipfile.BadZipFile`, or any other exception raised while reading an archive. */
  datatype ArchiveError = BadZipFile | OtherArchiveError

  /** One member of an archive's directory, with the outcome extracting it would have. */
  datatype Entry = Entry(name: string, isDir: bool, extractError: Option<ArchiveError>)

  /** An archive the user selected: either opening it raises, or it lists its members. */
  datatype Archive =
    | Unreadable(path: string, openError: ArchiveError)
    | Readable(path: string, entries: seq<Entry>)

  /** What the scan of one archive hands back: the extracted font paths, and the error
      that ended the scan early, if any (reported to the user, never raised). */
  datatype Extracted = Extracted(fonts: seq<string>, error: Option<ArchiveError>)

  /** A member is extracted when it is not a directory and its lower-cased suffix is one
      of the accepted font extensions. */
  predicate IsFontEntry(e: Entry) {
    !e.isDir && Lower(Suffix(e.name)) in FontExtensions
  }

  /*
   The scan below is stated for an arbitrary acceptance test `accept`; the installer's is
   `IsFontEntry`. Keeping the test abstract keeps the path reasoning out of the proofs
   about the scan itself.
   */

  /** Reference filter: the accepted members of a listing, in archive order. */
  function Accepted(es: seq<Entry>, accept: Entry -> bool): (r: seq<Entry>)
    ensures |r| <= |es|
    ensures forall e :: e in r ==> e in es && accept(e)
  {
    if |es| == 0 then []
    else (if accept(es[0]) then [es[0]] else []) + Accepted(es[1..], accept)
  }

  /** An accepted member whose extraction raises: the scan stops there. */
  predicate FailsExtraction(e: Entry, accept: Entry -> bool) {
    accept(e) && e.extractError.Some?
  }

  /** Index of the first member whose extraction fails, or the listing's length. */
  function FirstFailure(es: seq<Entry>, accept: Entry -> bool): (k: nat)
    ensures k <= |es|
    ensures k < |es| ==> FailsExtraction(es[k], accept)
    ensures forall j :: 0 <= j < k ==> !FailsExtraction(es[j], accept)
  {
    if |es| == 0 then 0
    else if FailsExtraction(es[0], accept) then 0
    else 1 + FirstFailure(es[1..], accept)
  }

  /** Where `zipfile` writes a member below the scratch directory. */
  function ExtractedPath(tempDir: string, e: Entry): string {
    Join(tempDir, e.name)
  }

  function ExtractedPaths(tempDir: string, es: seq<Entry>): (r: seq<string>)
    ensures |r| == |es|
    ensures forall i :: 0 <= i < |es| ==> r[i] == ExtractedPath(tempDir, es[i])
  {
    seq(|es|, i requires 0 <= i < |es| => ExtractedPath(tempDir, es[i]))
  }

  lemma ExtractedPathsAppend(tempDir: string, a: seq<Entry>, b: seq<Entry>)
    ensures ExtractedPaths(tempDir, a + b) == ExtractedPaths(tempDir, a) + ExtractedPaths(tempDir, b)
  {
  }

  /** Dropping the first member of a prefix is the prefix of the rest. */
  lemma AcceptedOfPrefix(es: seq<Entry>, k: nat, accept: Entry -> bool)
    requires 1 <= k <= |es|
    ensures Accepted(es[..k], accept)
            == (if accept(es[0]) then [es[0]] else []) + Accepted(es[1..][..k - 1], accept)
  {
    assert es[..k][1..] == es[1..][..k - 1];
  }

  /** The loop over `infolist()`: members are visited in order, accepted members are
      extracted and collected, and the first failing extraction ends the loop with what
      was collected so far. */
  function Scan(tempDir: string, es: seq<Entry>, accept: Entry -> bool): Extracted {
    if |es| == 0 then Extracted([], None)
    else if !accept(es[0]) then Scan(tempDir, es[1..], accept)
    else if es[0].extractError.Some? then Extracted([], es[0].extractError)
    else
      var rest := Scan(tempDir, es[1..], accept);
      Extracted([ExtractedPath(tempDir, es[0])] + rest.fonts, rest.error)
  }

  /** The scan returns the extracted paths of the accepted members before the first
      failing extraction, in order, and reports an error exactly when such a failure
      exists, namely that member's error. */
  predicate ScanIsPrefix(tempDir: string, es: seq<Entry>, accept: Entry -> bool) {
    var r := Scan(tempDir, es, accept);
    var k := FirstFailure(es, accept);
    && r.fonts == ExtractedPaths(tempDir, Accepted(es[..k], accept))
    && (r.error.Some? <==> k < |es|)
    && (r.error.Some? ==> r.error == es[k].extractError)
  }

  lemma {:induction false} ScanIsFilteredPrefix(tempDir: string, es: seq<Entry>, accept: Entry -> bool)
    ensures ScanIsPrefix(tempDir, es, accept)
  {
    if |es| > 0 {
      if FailsExtraction(es[0], accept) {
        assert es[..0] == [];
      } else {
        ScanIsFilteredPrefix(tempDir, es[1..], accept);
        ScanStep(tempDir, es, accept);
      }
    }
  }

  /** A member that does not fail adds its own path, if accepted, in front of what the
      scan of the rest returns. */
  lemma ScanStep(tempDir: string, es: seq<Entry>, accept: Entry -> bool)
    requires |es| > 0 && !FailsExtraction(es[0], accept)
    requires ScanIsPrefix(tempDir, es[1..], accept)
    ensures ScanIsPrefix(tempDir, es, accept)
  {
    var k := FirstFailure(es, accept);
    var rest := Scan(tempDir, es[1..], accept);
    assert k == 1 + FirstFailure(es[1..], accept);
    var head := if accept(es[0]) then [es[0]] else [];
    var acc := Accepted(es[1..][..k - 1], accept);
    assert Accepted(es[..k], accept) == head + acc by {
      AcceptedOfPrefix(es, k, accept);
    }
    assert ExtractedPaths(tempDir, head + acc) == ExtractedPaths(tempDir, head) + rest.fonts by {
      ExtractedPathsAppend(tempDir, head, acc);
    }
  }

  /** With no failing extraction, the scan returns every accepted member's path. */
  lemma ScanWithoutFailure(tempDir: string, es: seq<Entry>, accept: Entry -> bool)
    requires forall i :: 0 <= i < |es| ==> !FailsExtraction(es[i], accept)
    ensures Scan(tempDir, es, accept) == Extracted(ExtractedPaths(tempDir, Accepted(es, accept)), None)
  {
    ScanIsFilteredPrefix(tempDir, es, accept);
    assert FirstFailure(es, accept) == |es|;
    assert es[..|es|] == es;
  }

  /** The font members of a listing, in archive order. */
  function FontEntries(es: seq<Entry>): seq<Entry> {
    Accepted(es, IsFontEntry)
  }

  /** `extract_fonts_from_zip`: an unreadable archive yields no fonts and its error; a
      readable one yields the paths of its font members, in order, up to the first
      failing extraction. No error escapes. */
  function ExtractFonts(a: Archive, tempDir: string): (r: Extracted)
    ensures a.Unreadable? ==> r == Extracted([], Some(a.openError))
    ensures a.Readable? ==>
              var k := FirstFailure(a.entries, IsFontEntry);
              && r.fonts == ExtractedPaths(tempDir, FontEntries(a.entries[..k]))
              && (r.error.Some? <==> k < |a.entries|)
              && (r.error.Some? ==> r.error == a.entries[k].extractError)
  {
    match a
    case Unreadable(_, err) => Extracted([], Some(err))
    case Readable(_, entries) =>
      ScanIsFilteredPrefix(tempDir, entries, IsFontEntry);
      Scan(tempDir, entries, IsFontEntry)
  }

  /** When no extraction fails, every font member of the archive is extracted, in order. */
  lemma CompleteScan(a: Archive, tempDir: string)
    requires a.Readable?
    requires forall i :: 0 <= i < |a.entries| ==> !FailsExtraction(a.entries[i], IsFontEntry)
    ensures ExtractFonts(a, tempDir) == Extracted(ExtractedPaths(tempDir, FontEntries(a.entries)), None)
  {
    ScanWithoutFailure(tempDir, a.entries, IsFontEntry);
  }

  /** Every path the scan returns carries an accepted extension (compared in lower case):
      a `readme.txt` is never returned. */
  lemma ExtractedAreFonts(a: Archive, tempDir: string)
    ensures forall p :: p in ExtractFonts(a, tempDir).fonts ==> Lower(Suffix(p)) in FontExtensions
  {
    if a.Readable? {
      var fs := FontEntries(a.entries[..FirstFailure(a.entries, IsFontEntry)]);
      forall p | p in ExtractFonts(a, tempDir).fonts
        ensures Lower(Suffix(p)) in FontExtensions
      {
        var i :| 0 <= i < |fs| && p == ExtractedPath(tempDir, fs[i]);
        assert fs[i] in fs;
        SuffixOfJoin(tempDir, fs[i].name);
      }
    }
  }

  /** The filter keeps exactly the accepted members: a member is in the result if and
      only if it is in the listing and accepted. */
  lemma {:induction false} AcceptedExact(es: seq<Entry>, accept: Entry -> bool, e: Entry)
    ensures e in Accepted(es, accept) <==> e in es && accept(e)
  {
    if |es| > 0 {
      AcceptedExact(es[1..], accept, e);
      assert es == [es[0]] + es[1..];
    }
  }
}

=== FILE: fixtures.dfy ===
/**
 The archive the repository's test-data script writes (four fonts at the top level, two
 text files, one font in a sub-folder), run through the archive scanner's filter: which
 members it takes, one member of each kind. One further member name that the script
 does not write, a dot followed by a font extension (`..otf`), serves as a test vector
 where the scanner and the registry name disagree about a font's kind.
 */
module Fixtures {
  import opened Common
  import opened Paths
  import opened Extraction
  import opened RegistryNames

  /*
   The members the script writes are `TestFont-Regular.ttf`, `TestFont-Bold.ttf`,
   `TestFont-Italic.otf`, `TestFont-BoldItalic.otf`, `readme.txt`, `license.txt` and
   `subfolder/TestFont-Light.ttf`. The lemmas below classify one of each kind.
   */

  /** A plain file member that extracts without error. */
  function Member(name: string): Entry {
    Entry(name, false, None)
  }

  /** A member `head + stem + ext` is taken exactly when the lower-cased `ext` is a font
      extension. */
  lemma MemberAccepted(head: string, stem: string, ext: string)
    requires head == "" || IsSep(head[|head| - 1])
    requires stem != "" && NoSep(stem)
    requires IsExtension(ext) && |ext| >= 2
    ensures IsFontEntry(Member(head + (stem + ext))) <==> Lower(ext) in FontExtensions
  {
    SuffixOfFileName(head, stem, ext);
  }

  /** An extension whose third character is an `x` is none of the font extensions. */
  lemma NotFontExtension(ext: string)
    requires |ext| == 4 && ext[2] == 'x'
    ensures ext !in FontExtensions
  {
    var t, o := ".ttf", ".otf";
    var tc, oc := ".ttc", ".otc";
    assert t[2] == 't' && o[2] == 't' && tc[2] == 't' && oc[2] == 't';
  }

  /*
   Each name below is written as its stem followed by its extension (and, for the member
   in the sub-folder, preceded by the folder), which is the form the filter's lemma takes.
   */

  /** `TestFont-Italic.otf`, at the top level with a lower-case font extension, is taken. */
  lemma ItalicIsFont()
    ensures IsFontEntry(Member("TestFont-Italic" + ".otf"))
  {
    var ext := ".otf";
    assert Lower(ext) in FontExtensions by {
      LowerOfLowerCase(ext);
    }
    MemberAccepted("", "TestFont-Italic", ext);
    assert "" + ("TestFont-Italic" + ext) == "TestFont-Italic" + ext;
  }

  /** The text file `readme.txt` is left in the archive. */
  lemma ReadmeIsNotFont()
    ensures !IsFontEntry(Member("readme" + ".txt"))
  {
    var ext := ".txt";
    LowerOfLowerCase(ext);
    NotFontExtension(ext);
    MemberAccepted("", "readme", ext);
    assert "" + ("readme" + ext) == "readme" + ext;
  }

  /** `subfolder/TestFont-Light.ttf` is taken, exactly as the same file at the top level
      would be: the folder plays no part. */
  lemma LightIsFont()
    ensures IsFontEntry(Member("subfolder/" + ("TestFont-Light" + ".ttf")))
    ensures IsFontEntry(Member("subfolder/" + ("TestFont-Light" + ".ttf"))) == IsFontEntry(Member("TestFont-Light" + ".ttf"))
  {
    var ext := ".ttf";
    assert Lower(ext) in FontExtensions by {
      LowerOfLowerCase(ext);
    }
    MemberAccepted("subfolder/", "TestFont-Light", ext);
    MemberAccepted("", "TestFont-Light", ext);
    assert "" + ("TestFont-Light" + ext) == "TestFont-Light" + ext;
  }

  /** The extension is compared in lower case: a member named `TESTFONT.TTF` is taken too. */
  lemma UpperCaseIsFont()
    ensures IsFontEntry(Member("TESTFONT" + ".TTF"))
  {
    var ext := ".TTF";
    var lowered := ".ttf";
    assert Lower(ext) == lowered by {
      assert |Lower(ext)| == 4;
      assert LowerChar('T') == 't' && LowerChar('F') == 'f';
    }
    MemberAccepted("", "TESTFONT", ext);
    assert "" + ("TESTFONT" + ext) == "TESTFONT" + ext;
  }

  /*
   A member named `..otf` shows that the scanner and the registry name can disagree about
   a font's kind. The lemmas below state this for a dot followed by any font extension.
   */

  /** `pathlib` finds the extension as the suffix of a dot followed by it. */
  lemma SuffixOfDotAndExtension(ext: string)
    requires IsExtension(ext) && |ext| >= 2
    ensures Suffix("." + ext) == ext
  {
    SuffixOfFileName("", ".", ext);
    assert "" + ("." + ext) == "." + ext;
  }

  /** A dot followed by an extension is its own base name. */
  lemma BasenameOfDotAndExtension(ext: string)
    requires IsExtension(ext) && |ext| >= 2
    ensures Basename("." + ext) == "." + ext
  {
    var name := "." + ext;
    NoSepConcat(".", ext);
    BasenameOfSplit("", name);
    assert "" + name == name;
  }

  /** The stem of a dot followed by an extension is the dot. */
  lemma StemOfDotAndExtension(ext: string)
    requires IsExtension(ext) && |ext| >= 2
    ensures Stem("." + ext) == "."
  {
    SuffixOfDotAndExtension(ext);
    BasenameOfDotAndExtension(ext);
    var name := "." + ext;
    assert name[..|name| - |ext|] == ".";
  }

  /** A name made of one dot and an extension keeps its whole text and gets the fallback
      label, whatever the extension. The name is passed separately from its parts, which
      keeps the solver from unfolding the registry name over the concatenation. */
  lemma RegistryNameOfDotAndExtension(ext: string, name: string)
    requires IsExtension(ext) && |ext| >= 2
    requires name == "." + ext
    ensures FontRegistryName(name) == SpaceOut(name) + Label(TrueType)
  {
    SuffixOfDotAndExtension(ext);
    BasenameOfDotAndExtension(ext);
    StemOfDotAndExtension(ext);
    var stem := ".";
    assert AllDots(stem);
    RegistryNameOfAllDotsStem(name);
  }

  /** A member named a dot followed by a font extension (`..otf`) is extracted, since its
      suffix is that extension, yet it is registered with the TrueType label, since
      `splitext` sees no extension in it. */
  lemma DotStemScannedButFallbackLabel(ext: string)
    requires IsExtension(ext) && |ext| >= 2
    requires Lower(ext) in FontExtensions
    ensures IsFontEntry(Member("." + ext))
    ensures Suffix("." + ext) == ext
    ensures FontRegistryName("." + ext) == SpaceOut("." + ext) + Label(TrueType)
  {
    MemberAccepted("", ".", ext);
    assert "" + ("." + ext) == "." + ext;
    SuffixOfDotAndExtension(ext);
    RegistryNameOfDotAndExtension(ext, "." + ext);
  }
}

=== FILE: install.dfy ===
/**
 The installation of one extracted font file: copy it into the system font directory,
 register it with the running session, record it in the registry, and tell the other
 windows. Every foreign call is replaced by the outcome it has, given as a parameter.
 */
module Install {
  import opened Common
  import opened Paths
  import opened RegistryNames

  /** The tag of a successful installation. */
  const SystemWide := "system-wide"
  /** The tag of every failed installation. */
  const UnknownError := "unknown error"
  /** The Windows directory used when the `WINDIR` variable is unset. */
  const DefaultWindowsDir := "C:\\Windows"

  /** What `AddFontResourceW` does: return the number of fonts added, or raise. */
  datatype AddFontResult = AddReturned(count: int) | AddRaised(exc: Exc)

  /** The outcome of every foreign call made while installing one font: the file copy,
      `AddFontResourceW`, the registry write (opening the key or setting the value) and
      the `SendMessageTimeoutW` broadcast. */
  datatype FontEnv = FontEnv(
    copy: CallResult,
    addFontResource: AddFontResult,
    registryWrite: CallResult,
    broadcast: CallResult)

  /** The Python value returned: `None`, or a `(success, tag)` tuple. */
  datatype InstallResult = NoneReturned | Returned(success: bool, tag: string)

  /** A value under the system font registry key: display name to file name. */
  datatype RegistryValue = RegistryValue(name: string, file: string)

  /** The returned value together with the effects on the machine: where the file was
      copied, the registry value that was stored, which file the clean-up tried to remove,
      and whether the font-change broadcast was called (it may still have raised). */
  datatype InstallRun = InstallRun(
    result: InstallResult,
    copiedTo: Option<string>,
    registryStored: Option<RegistryValue>,
    removeAttempted: Option<string>,
    broadcastCalled: bool)

  /** `os.path.join(os.environ.get('WINDIR', 'C:\\Windows'), 'Fonts', basename)`. */
  function SystemFontPath(windir: Option<string>, fontPath: string): string {
    Join(Join(windir.GetOr(DefaultWindowsDir), "Fonts"), Basename(fontPath))
  }

  /** The value an exception escaping the `try` block turns into: `PermissionError` makes
      the function return `None`; any other exception falls through to the failure tuple. */
  function Escaped(e: Exc): InstallResult {
    if e == PermissionError then NoneReturned else Returned(false, UnknownError)
  }

  /** A `PermissionError` is raised by a call that is actually reached. */
  predicate PermissionErrorEscapes(env: FontEnv) {
    || env.copy == Raised(PermissionError)
    || (&& env.copy.Completed?
        && (|| env.addFontResource == AddRaised(PermissionError)
            || (&& env.addFontResource.AddReturned?
                && env.addFontResource.count > 0
                && env.broadcast == Raised(PermissionError))))
  }

  /** The font was copied and `AddFontResourceW` reported at least one font added. */
  predicate Registered(env: FontEnv) {
    env.copy.Completed? && env.addFontResource.AddReturned? && env.addFontResource.count > 0
  }

  /** The body of `install_font_file` as written, for a given destination path and
      registry value. */
  function InstallAt(dest: string, value: RegistryValue, env: FontEnv): (r: InstallRun)
    // success exactly when the copy and the registration succeed (and the broadcast returns)
    ensures r.result == Returned(true, SystemWide) <==> Registered(env) && env.broadcast.Completed?
    // a returned tuple is either success or the one failure tag
    ensures r.result.Returned? ==> r.result.tag == (if r.result.success then SystemWide else UnknownError)
    // `None` comes back exactly when a reached call raises `PermissionError`
    ensures r.result.NoneReturned? <==> PermissionErrorEscapes(env)
    ensures r.copiedTo == (if env.copy.Completed? then Some(dest) else None)
    // registration refused: the copy is removed, nothing is broadcast or stored, failure
    ensures r.removeAttempted.Some? <==>
              env.copy.Completed? && env.addFontResource.AddReturned? && env.addFontResource.count <= 0
    ensures r.removeAttempted.Some? ==>
              && r.removeAttempted == r.copiedTo
              && !r.broadcastCalled
              && r.registryStored.None?
              && r.result == Returned(false, UnknownError)
    ensures r.broadcastCalled <==> Registered(env)
    ensures r.registryStored == (if Registered(env) && env.registryWrite.Completed? then Some(value) else None)
  {
    match env.copy
    case Raised(e) => InstallRun(Escaped(e), None, None, None, false)
    case Completed =>
      match env.addFontResource
      case AddRaised(e) => InstallRun(Escaped(e), Some(dest), None, None, false)
      case AddReturned(n) =>
        if n > 0 then
          // registry errors are caught and only logged
          var stored := if env.registryWrite.Completed? then Some(value) else None;
          var result := match env.broadcast
            case Completed => Returned(true, SystemWide)
            case Raised(e) => Escaped(e);
          InstallRun(result, Some(dest), stored, None, true)
        else
          // the removal's own errors are swallowed
          InstallRun(Returned(false, UnknownError), Some(dest), None, Some(dest), false)
  }

  /** `install_font_file` as written: the copy goes to the system font directory and the
      registry value maps the display name to the file name. */
  function InstallFontFile(fontPath: string, windir: Option<string>, env: FontEnv): InstallRun {
    InstallAt(
      SystemFontPath(windir, fontPath),
      RegistryValue(FontRegistryName(fontPath), Basename(fontPath)),
      env)
  }

  /** The stored registry value maps the font's display name to its file name. */
  lemma RegistryValueNamesTheFile(fontPath: string, windir: Option<string>, env: FontEnv)
    requires InstallFontFile(fontPath, windir, env).registryStored.Some?
    ensures var v := InstallFontFile(fontPath, windir, env).registryStored.value;
            && v.file == Basename(fontPath)
            && v.name == FontRegistryName(fontPath)
            && NoWordSeparator(v.name)
  {
  }

  /** The system destination keeps the file's own name and lies below the Windows
      directory. */
  lemma SystemFontPathKeepsName(windir: Option<string>, fontPath: string)
    ensures Basename(SystemFontPath(windir, fontPath)) == Basename(fontPath)
    ensures windir.GetOr(DefaultWindowsDir) <= SystemFontPath(windir, fontPath)
  {
    var root := windir.GetOr(DefaultWindowsDir);
    var dir := Join(root, "Fonts");
    BasenameOfJoinedName(dir, Basename(fontPath));
    assert root <= dir <= Join(dir, Basename(fontPath));
  }

  /** The copy made by the installer keeps the file's own name and lands below the Windows
      directory. */
  lemma CopyKeepsFileName(fontPath: string, windir: Option<string>, env: FontEnv)
    requires InstallFontFile(fontPath, windir, env).copiedTo.Some?
    ensures var dest := InstallFontFile(fontPath, windir, env).copiedTo.value;
            && Basename(dest) == Basename(fontPath)
            && windir.GetOr(DefaultWindowsDir) <= dest
  {
    assert InstallFontFile(fontPath, windir, env).copiedTo.value == SystemFontPath(windir, fontPath);
    SystemFontPathKeepsName(windir, fontPath);
  }

  /** Whether the registry write succeeds never changes the returned value, nor any effect
      other than the stored value itself. */
  lemma RegistryOutcomeIrrelevant(fontPath: string, windir: Option<string>, env: FontEnv, write: CallResult)
    ensures var a := InstallFontFile(fontPath, windir, env);
            var b := InstallFontFile(fontPath, windir, env.(registryWrite := write));
            a.(registryStored := None) == b.(registryStored := None)
  {
  }

  /** The tally's user-level branch is unreachable: no returned tag mentions it. */
  lemma NoUserLevelTag(fontPath: string, windir: Option<string>, env: FontEnv)
    ensures var r := InstallFontFile(fontPath, windir, env).result;
            r.Returned? ==> r.tag in {SystemWide, UnknownError}
  {
  }

  /** The evidently intended function: the bare `return` in the `PermissionError` handler
      removed, so that the handler falls through to the failure tuple like the generic
      one. */
  function InstallFontFileCorrected(fontPath: string, windir: Option<string>, env: FontEnv): (r: InstallRun)
    ensures r.result.Returned?
    ensures r.result.success <==> Registered(env) && env.broadcast.Completed?
    ensures r.result.tag == (if r.result.success then SystemWide else UnknownError)
    ensures var w := InstallFontFile(fontPath, windir, env);
            && (w.result.Returned? ==> r == w)
            && (w.result.NoneReturned? ==> r == w.(result := Returned(false, UnknownError)))
  {
    var w := InstallFontFile(fontPath, windir, env);
    if w.result.NoneReturned? then w.(result := Returned(false, UnknownError)) else w
  }

  /** The variant of the program a batch runs: as written, or with both of its defects
      corrected together (here the bare `return`; the worker's error dialog is the
      other). */
  datatype Variant = AsWritten | Corrected

  function InstallWith(v: Variant, fontPath: string, windir: Option<string>, env: FontEnv): InstallRun {
    match v
    case AsWritten => InstallFontFile(fontPath, windir, env)
    case Corrected => InstallFontFileCorrected(fontPath, windir, env)
  }
}

=== FILE: paths.dfy ===
/**
 Pure string operations on Windows paths that the installer relies on: `str.rfind`,
 `os.path.basename`, `pathlib`'s `suffix`, `os.path.splitext`, `os.path.join` and
 `str.lower` as far as ASCII letters go.
 */
module Paths {

  /** A path separator as Windows sees it: both slashes. */
  predicate IsSep(c: char) {
    c == '/' || c == '\\'
  }

  predicate IsDot(c: char) {
    c == '.'
  }

  predicate NoSep(s: string) {
    forall i :: 0 <= i < |s| ==> !IsSep(s[i])
  }

  predicate AllDots(s: string) {
    forall i :: 0 <= i < |s| ==> IsDot(s[i])
  }

  /** An extension as `splitext` and `suffix` produce it: a dot followed by text with no
      further dot and no separator. */
  predicate IsExtension(ext: string) {
    && |ext| >= 1
    && ext[0] == '.'
    && forall i :: 1 <= i < |ext| ==> !IsDot(ext[i]) && !IsSep(ext[i])
  }

  /** Index of the last separator in `s`, or -1 when there is none (`str.rfind`). */
  function LastSep(s: string): (r: int)
    ensures -1 <= r < |s|
    ensures 0 <= r ==> IsSep(s[r])
    ensures forall j :: r < j < |s| ==> !IsSep(s[j])
  {
    if |s| == 0 then -1
    else if IsSep(s[|s| - 1]) then |s| - 1
    else LastSep(s[..|s| - 1])
  }

  /** Index of the last dot in `s`, or -1 when there is none (`str.rfind('.')`). */
  function LastDot(s: string): (r: int)
    ensures -1 <= r < |s|
    ensures 0 <= r ==> IsDot(s[r])
    ensures forall j :: r < j < |s| ==> !IsDot(s[j])
  {
    if |s| == 0 then -1
    else if IsDot(s[|s| - 1]) then |s| - 1
    else LastDot(s[..|s| - 1])
  }

  /** The final component of a path: the longest separator-free tail
      (`os.path.basename`, and `PurePath.name`). */
  function Basename(path: string): (r: string)
    ensures |r| <= |path| && r == path[|path| - |r|..]
    ensures NoSep(r)
    ensures |r| < |path| ==> IsSep(path[|path| - |r| - 1])
  {
    path[LastSep(path) + 1..]
  }

  /** Any split of a path into a separator-terminated (or empty) head and a separator-free
      tail has the base name as its tail. */
  lemma BasenameOfSplit(head: string, name: string)
    requires head == "" || IsSep(head[|head| - 1])
    requires NoSep(name)
    ensures Basename(head + name) == name
  {
    var p := head + name;
    assert LastSep(p) == |head| - 1;
    assert p[|head|..] == name;
  }

  /** Concatenating separator-free texts gives a separator-free text. */
  lemma NoSepConcat(a: string, b: string)
    requires NoSep(a) && NoSep(b)
    ensures NoSep(a + b)
  {
    forall i | 0 <= i < |a + b|
      ensures !IsSep((a + b)[i])
    {
      if i >= |a| {
        assert (a + b)[i] == b[i - |a|];
      }
    }
  }

  /** The text from the last dot on is an extension when no separator follows that dot. */
  lemma TailFromLastDot(path: string, d: int)
    requires 0 <= d == LastDot(path)
    requires LastSep(path) < d
    ensures IsExtension(path[d..])
  {
    var ext := path[d..];
    forall i | 1 <= i < |ext|
      ensures !IsDot(ext[i]) && !IsSep(ext[i])
    {
      assert ext[i] == path[d + i];
    }
  }

  /** `os.path.join(dir, name)` for a relative `name` and a `dir` that is not a bare
      drive: a backslash is inserted unless `dir` is empty or already ends in a
      separator. */
  function Join(dir: string, name: string): (r: string)
    ensures |name| <= |r| && r[|r| - |name|..] == name
    ensures |r| == |name| || IsSep(r[|r| - |name| - 1])
    ensures dir <= r
    // exactly one backslash is added, and only when `dir` neither is empty nor ends in one
    ensures |r| == |dir| + |name| + (if dir == "" || IsSep(dir[|dir| - 1]) then 0 else 1)
    ensures |r| > |dir| + |name| ==> r[|dir|] == '\\'
  {
    if dir == "" then name
    else if IsSep(dir[|dir| - 1]) then dir + name
    else dir + "\\" + name
  }

  /** `os.path.join(dir, *parts)` for relative parts: the parts joined on one by one. */
  function JoinAll(dir: string, parts: seq<string>): string {
    if |parts| == 0 then dir else Join(JoinAll(dir, parts[..|parts| - 1]), parts[|parts| - 1])
  }

  /** The contract of `Join` determines its value: any text that starts with the directory,
      ends with the name, and has the length and the inserted backslash `Join` promises, is
      the joined path. */
  lemma JoinDetermined(dir: string, name: string, r: string)
    requires |name| <= |r| && r[|r| - |name|..] == name
    requires dir <= r
    requires |r| == |dir| + |name| + (if dir == "" || IsSep(dir[|dir| - 1]) then 0 else 1)
    requires |r| > |dir| + |name| ==> r[|dir|] == '\\'
    ensures r == Join(dir, name)
  {
    var j := Join(dir, name);
    assert |r| == |j|;
    forall i | 0 <= i < |r|
      ensures r[i] == j[i]
    {
      if i < |dir| {
        assert r[i] == dir[i] == j[i];
      } else if i >= |r| - |name| {
        assert r[i] == r[|r| - |name|..][i - (|r| - |name|)];
        assert j[i] == j[|j| - |name|..][i - (|j| - |name|)];
      }
    }
  }

  /** Joining parts onto a directory keeps the directory as a prefix. */
  lemma {:induction false} JoinAllBelow(dir: string, parts: seq<string>)
    ensures dir <= JoinAll(dir, parts)
  {
    if |parts| > 0 {
      JoinAllBelow(dir, parts[..|parts| - 1]);
      var d := JoinAll(dir, parts[..|parts| - 1]);
      assert d <= Join(d, parts[|parts| - 1]);
    }
  }

  /** The last separator of a concatenation lies in its second part when that part has
      one, and is the last separator of the first part otherwise. */
  lemma {:induction false} LastSepOfConcat(a: string, b: string)
    ensures LastSep(a + b) == if LastSep(b) >= 0 then |a| + LastSep(b) else LastSep(a)
  {
    if |b| == 0 {
      assert a + b == a;
    } else {
      var p := a + b;
      assert p[|p| - 1] == b[|b| - 1];
      if !IsSep(b[|b| - 1]) {
        assert p[..|p| - 1] == a + b[..|b| - 1];
        LastSepOfConcat(a, b[..|b| - 1]);
      }
    }
  }

  /** Putting a separator-terminated (or empty) head in front of a path does not change
      its base name. */
  lemma BasenameOfPrefixed(head: string, path: string)
    requires head == "" || IsSep(head[|head| - 1])
    ensures Basename(head + path) == Basename(path)
  {
    var k := LastSep(path);
    assert LastSep(head + path) == |head| + k by {
      LastSepOfConcat(head, path);
      if k < 0 && head != "" {
        assert LastSep(head) == |head| - 1;
      }
    }
    assert (head + path)[|head| + k + 1..] == path[k + 1..];
  }

  /** The last separator is the one position that is a separator (or -1) with no
      separator after it. */
  lemma LastSepUnique(s: string, r: int)
    requires -1 <= r < |s|
    requires 0 <= r ==> IsSep(s[r])
    requires forall j :: r < j < |s| ==> !IsSep(s[j])
    ensures LastSep(s) == r
  {
  }

  /** Joining never changes the base name of the joined part. */
  lemma BasenameOfJoin(dir: string, name: string)
    ensures Basename(Join(dir, name)) == Basename(name)
  {
    if dir == "" {
    } else if IsSep(dir[|dir| - 1]) {
      BasenameOfPrefixed(dir, name);
    } else {
      assert Join(dir, name) == (dir + "\\") + name;
      BasenameOfPrefixed(dir + "\\", name);
    }
  }

  /** A separator-free name joined onto a directory is the base name of the result. */
  lemma BasenameOfJoinedName(dir: string, name: string)
    requires NoSep(name)
    ensures Basename(Join(dir, name)) == name
  {
    BasenameOfJoin(dir, name);
    LastSepUnique(name, -1);
    assert name[0..] == name;
  }

  /** `PurePath.suffix` as Python 3.12 computes it: the final component from its last dot
      on, provided that dot is neither the component's first nor its last character;
      otherwise empty. */
  function Suffix(path: string): (r: string)
    ensures r == "" || (IsExtension(r) && 2 <= |r| < |Basename(path)|)
    ensures r <= Basename(path)[|Basename(path)| - |r|..]
  {
    var name := Basename(path);
    var i := LastDot(name);
    if 0 < i < |name| - 1 then
      TailFromLastDot(name, i);
      name[i..]
    else ""
  }

  /** A suffix depends on the final component alone. */
  lemma SuffixOfJoin(dir: string, name: string)
    ensures Suffix(Join(dir, name)) == Suffix(name)
  {
    BasenameOfJoin(dir, name);
  }

  /** In a name `stem + ext`, the last dot is the one that starts `ext`. */
  lemma LastDotOfFileName(stem: string, ext: string)
    requires IsExtension(ext)
    ensures LastDot(stem + ext) == |stem|
  {
    var name := stem + ext;
    assert name[|stem|] == ext[0];
    assert forall j :: |stem| < j < |name| ==> name[j] == ext[j - |stem|];
  }

  /** A file named `stem + ext` under any directory has suffix `ext` when the stem is
      not empty and `ext` is a dot followed by at least one character. */
  lemma SuffixOfFileName(head: string, stem: string, ext: string)
    requires head == "" || IsSep(head[|head| - 1])
    requires stem != "" && NoSep(stem)
    requires IsExtension(ext) && |ext| >= 2
    ensures Suffix(head + (stem + ext)) == ext
  {
    var name := stem + ext;
    NoSepConcat(stem, ext);
    BasenameOfSplit(head, name);
    LastDotOfFileName(stem, ext);
    SuffixOfName(head + name, name, |stem|);
    assert name[|stem|..] == ext;
  }

  /** The suffix read off a path whose final component and last dot are known. */
  lemma SuffixOfName(path: string, name: string, d: int)
    requires Basename(path) == name
    requires LastDot(name) == d && 0 < d < |name| - 1
    ensures Suffix(path) == name[d..]
  {
  }

  /** `os.path.splitext` (Windows flavour): split at the last dot of the final component,
      unless everything in the component before that dot is a dot. Root and extension
      together give back the path. */
  function SplitExt(path: string): (r: (string, string))
    ensures r.0 + r.1 == path
    ensures r.1 == "" || IsExtension(r.1)
  {
    var s := LastSep(path);
    var d := LastDot(path);
    if s < d && !AllDots(path[s + 1..d]) then
      TailFromLastDot(path, d);
      (path[..d], path[d..])
    else (path, "")
  }

  /** A separator-free name `stem + ext` whose stem is not all dots splits into exactly
      `stem` and `ext`. */
  lemma SplitExtOfFileName(stem: string, ext: string)
    requires NoSep(stem) && !AllDots(stem)
    requires IsExtension(ext)
    ensures SplitExt(stem + ext) == (stem, ext)
  {
    var name := stem + ext;
    NoSepConcat(stem, ext);
    assert LastSep(name) == -1;
    LastDotOfFileName(stem, ext);
    assert name[0..|stem|] == stem;
  }

  /** The text of a path's final component in front of its suffix. */
  function Stem(path: string): string {
    var name := Basename(path);
    name[..|name| - |Suffix(path)|]
  }

  /** A separator-free name splits at its last dot when the text in front of that dot is
      not made of dots alone. */
  lemma SplitExtAtLastDot(name: string, i: int)
    requires NoSep(name)
    requires 0 <= i == LastDot(name)
    requires !AllDots(name[..i])
    ensures SplitExt(name) == (name[..i], name[i..])
  {
    LastSepUnique(name, -1);
    assert name[0..i] == name[..i];
  }

  /** Where `PurePath.suffix` finds an extension and the stem in front of it is not made of
      dots alone, `splitext` of the final component splits at the same dot. */
  lemma SplitExtAgreesWithSuffix(path: string)
    requires Suffix(path) != ""
    requires !AllDots(Stem(path))
    ensures SplitExt(Basename(path)) == (Stem(path), Suffix(path))
  {
    var name := Basename(path);
    var i := LastDot(name);
    assert 0 < i && Suffix(path) == name[i..] && Stem(path) == name[..i];
    SplitExtAtLastDot(name, i);
  }

  /** A name without any dot has no extension. */
  lemma SplitExtWithoutDot(name: string)
    requires forall i :: 0 <= i < |name| ==> !IsDot(name[i])
    ensures SplitExt(name) == (name, "")
  {
  }

  /** `str.lower` on one character, for the ASCII letters. */
  function LowerChar(c: char): char {
    if 'A' <= c <= 'Z' then (c as int + 32) as char else c
  }

  /** `str.lower`, restricted to ASCII letters: the text keeps its length and every
      upper-case ASCII letter becomes its lower-case partner. */
  function Lower(s: string): (r: string)
    ensures |r| == |s|
    ensures forall i :: 0 <= i < |s| ==> r[i] == LowerChar(s[i])
  {
    if |s| == 0 then "" else [LowerChar(s[0])] + Lower(s[1..])
  }

  /** Text without upper-case ASCII letters is its own lower case. */
  lemma LowerOfLowerCase(s: string)
    requires forall i :: 0 <= i < |s| ==> !('A' <= s[i] <= 'Z')
    ensures Lower(s) == s
  {
  }
}

=== FILE: registry_names.dfy ===
/**
 The display name under which an installed font is recorded in the Windows font registry
 key: the file's base name without extension, with underscores and hyphens turned into
 spaces, followed by a type label chosen by the extension.
 */
module RegistryNames {
  import opened Paths

  /** The font kinds the registry name distinguishes. */
  datatype FontType = TrueType | OpenType | TrueTypeCollection | OpenTypeCollection

  /** The text appended to the name for each kind. */
  function Label(t: FontType): string {
    match t
    case TrueType => " (TrueType)"
    case OpenType => " (OpenType)"
    case TrueTypeCollection => " (TrueType Collection)"
    case OpenTypeCollection => " (OpenType Collection)"
  }

  predicate IsWordSeparator(c: char) {
    c == '_' || c == '-'
  }

  /** `.replace('_', ' ').replace('-', ' ')`: every underscore and hyphen becomes a space and
      every other character stays where it was. */
  function SpaceOut(s: string): (r: string)
    ensures |r| == |s|
    ensures forall i :: 0 <= i < |s| ==> r[i] == (if IsWordSeparator(s[i]) then ' ' else s[i])
  {
    if |s| == 0 then "" else [if IsWordSeparator(s[0]) then ' ' else s[0]] + SpaceOut(s[1..])
  }

  /** The kind for a lower-cased extension. Each of the four font extensions has its own
      kind; every other extension falls back to TrueType. */
  function TypeOfExtension(ext: string): (r: FontType)
    ensures r == OpenType <==> ext == ".otf"
    ensures r == TrueTypeCollection <==> ext == ".ttc"
    ensures r == OpenTypeCollection <==> ext == ".otc"
    ensures r == TrueType <==> ext !in {".otf", ".ttc", ".otc"}
  {
    if ext == ".ttf" then TrueType
    else if ext == ".otf" then OpenType
    else if ext in [".ttc", ".otc"] then
      (if ext == ".ttc" then TrueTypeCollection else OpenTypeCollection)
    else TrueType
  }

  /** `get_font_name_from_file`: base name, extension split off, separators spaced out,
      type label appended. The name never contains an underscore or a hyphen. */
  function FontRegistryName(fontPath: string): (r: string)
    ensures NoWordSeparator(r)
  {
    var parts := SplitExt(Basename(fontPath));
    var t := TypeOfExtension(Lower(parts.1));
    LabelHasNoWordSeparator(t);
    SpaceOut(parts.0) + Label(t)
  }

  predicate NoWordSeparator(s: string) {
    forall i :: 0 <= i < |s| ==> !IsWordSeparator(s[i])
  }

  lemma LabelHasNoWordSeparator(t: FontType)
    ensures NoWordSeparator(Label(t))
  {
  }

  /** For a font file `stem + ext` in any directory, where `ext` is a real extension and
      the stem is not made of dots alone, the registry name is the spaced-out stem followed
      by the label of the lower-cased extension. */
  lemma RegistryNameOfFile(dir: string, stem: string, ext: string)
    requires NoSep(stem) && !AllDots(stem)
    requires IsExtension(ext)
    ensures FontRegistryName(Join(dir, stem + ext)) == SpaceOut(stem) + Label(TypeOfExtension(Lower(ext)))
  {
    NoSepConcat(stem, ext);
    BasenameOfJoinedName(dir, stem + ext);
    SplitExtOfFileName(stem, ext);
    RegistryNameOfParts(Join(dir, stem + ext), stem, ext);
  }

  /** The name is assembled from whatever `splitext` yields for the base name. */
  lemma RegistryNameOfParts(fontPath: string, stem: string, ext: string)
    requires SplitExt(Basename(fontPath)) == (stem, ext)
    ensures FontRegistryName(fontPath) == SpaceOut(stem) + Label(TypeOfExtension(Lower(ext)))
  {
  }

  /** A file name without any dot gets the whole name, spaced out, and the fallback label. */
  lemma RegistryNameWithoutExtension(dir: string, name: string)
    requires NoSep(name)
    requires forall i :: 0 <= i < |name| ==> !IsDot(name[i])
    ensures FontRegistryName(Join(dir, name)) == SpaceOut(name) + Label(TrueType)
  {
    BasenameOfJoinedName(dir, name);
    SplitExtWithoutDot(name);
    RegistryNameOfParts(Join(dir, name), name, "");
    FallbackLabel();
  }

  /** No extension at all gets the fallback label. */
  lemma FallbackLabel()
    ensures TypeOfExtension(Lower("")) == TrueType
  {
    assert Lower("") == "";
  }

  /** For a path the archive scanner accepted, the label follows the same suffix the
      scanner looked at, unless the stem is made of dots alone (then `splitext` finds no
      extension and the fallback label is used). */
  lemma RegistryNameOfScannedFont(fontPath: string)
    requires Suffix(fontPath) != ""
    requires !AllDots(Stem(fontPath))
    ensures FontRegistryName(fontPath) == SpaceOut(Stem(fontPath)) + Label(TypeOfExtension(Lower(Suffix(fontPath))))
  {
    SplitExtAgreesWithSuffix(fontPath);
    RegistryNameOfParts(fontPath, Stem(fontPath), Suffix(fontPath));
  }

  /** Where the scanner finds a suffix but the stem in front of it is made of dots alone
      (`..otf`), `splitext` finds no extension: the whole base name is kept and the
      fallback label is used, whatever the suffix says. */
  lemma RegistryNameOfAllDotsStem(fontPath: string)
    requires Suffix(fontPath) != ""
    requires AllDots(Stem(fontPath))
    ensures FontRegistryName(fontPath) == SpaceOut(Basename(fontPath)) + Label(TrueType)
  {
    var name := Basename(fontPath);
    var i := LastDot(name);
    assert 0 < i && Stem(fontPath) == name[..i];
    LastSepUnique(name, -1);
    assert name[0..i] == name[..i];
    assert SplitExt(name) == (name, "");
    RegistryNameOfParts(fontPath, name, "");
    FallbackLabel();
  }
}

=== FILE: userdirs.dfy ===
/**
 The search for a per-user font directory the installer could write to: try the candidate
 directories in order, create each one, write and remove a probe file, and take the first
 directory where all three steps succeed.
 */
module UserDirs {
  import opened Common
  import opened Paths

  /** What the three steps of the write test do in one directory: `os.makedirs`, writing
      the probe file `.test_write` in it, removing that file. */
  datatype Probe = Probe(makeDirs: CallResult, writeTest: CallResult, removeTest: CallResult)

  /** A directory is taken only when every step of its test completes; any exception moves
      on to the next candidate. */
  predicate Writable(p: Probe) {
    p.makeDirs.Completed? && p.writeTest.Completed? && p.removeTest.Completed?
  }

  /** The candidates below the home directory, in the order they are tried:
      `AppData\Local\Microsoft\Windows\Fonts`, then `Documents\Fonts`. */
  function CandidateDirectories(home: string): seq<string> {
    [ JoinAll(home, ["AppData", "Local", "Microsoft", "Windows", "Fonts"]),
      JoinAll(home, ["Documents", "Fonts"]) ]
  }

  /** Reference definition: the first directory whose test succeeds, if any. */
  function FirstWritable(dirs: seq<string>, probe: string -> Probe): (r: Option<string>)
    ensures r.Some? ==> r.value in dirs && Writable(probe(r.value))
    ensures r.None? <==> forall d :: d in dirs ==> !Writable(probe(d))
  {
    if |dirs| == 0 then None
    else if Writable(probe(dirs[0])) then Some(dirs[0])
    else FirstWritable(dirs[1..], probe)
  }

  /** The candidates before the chosen one all failed their test. */
  lemma {:induction false} FirstWritableIsFirst(dirs: seq<string>, probe: string -> Probe)
    ensures var r := FirstWritable(dirs, probe);
            r.Some? ==> exists i :: 0 <= i < |dirs| && dirs[i] == r.value
                                    && forall j :: 0 <= j < i ==> !Writable(probe(dirs[j]))
  {
    if |dirs| > 0 && !Writable(probe(dirs[0])) {
      FirstWritableIsFirst(dirs[1..], probe);
      var r := FirstWritable(dirs, probe);
      if r.Some? {
        var i :| 0 <= i < |dirs| - 1 && dirs[1..][i] == r.value
                 && forall j :: 0 <= j < i ==> !Writable(probe(dirs[1..][j]));
        assert dirs[i + 1] == r.value;
        forall j | 0 <= j < i + 1
          ensures !Writable(probe(dirs[j]))
        {
          if j > 0 {
            assert dirs[j] == dirs[1..][j - 1];
          }
        }
      }
    } else if |dirs| > 0 {
      assert dirs[0] == FirstWritable(dirs, probe).value;
    }
  }

  /** The loop of `check_user_font_directory` over a list of candidates. */
  method FindWritable(dirs: seq<string>, probe: string -> Probe) returns (r: Option<string>)
    ensures r == FirstWritable(dirs, probe)
  {
    var i := 0;
    while i < |dirs|
      invariant 0 <= i <= |dirs|
      invariant FirstWritable(dirs, probe) == FirstWritable(dirs[i..], probe)
    {
      var p := probe(dirs[i]);
      if p.makeDirs.Completed? && p.writeTest.Completed? && p.removeTest.Completed? {
        return Some(dirs[i]);
      }
      assert dirs[i..][1..] == dirs[i + 1..];
      i := i + 1;
    }
    r := None;
  }

  /** `check_user_font_directory`, with the home directory and the outcome of the write test
      in each directory as parameters. */
  method CheckUserFontDirectory(home: string, probe: string -> Probe) returns (r: Option<string>)
    ensures r == FirstWritable(CandidateDirectories(home), probe)
    ensures r.Some? ==> home <= r.value
  {
    CandidatesUnderHome(home);
    r := FindWritable(CandidateDirectories(home), probe);
  }

  /** Every candidate lies below the home directory. */
  lemma CandidatesUnderHome(home: string)
    ensures forall d :: d in CandidateDirectories(home) ==> home <= d
  {
    var local, documents := ["AppData", "Local", "Microsoft", "Windows", "Fonts"], ["Documents", "Fonts"];
    JoinAllBelow(home, local);
    JoinAllBelow(home, documents);
  }
}
